=== FILE: README.md ===
# Job-state synchronisation, modelled in Dafny

This project models how a stem-separation service keeps each job's state.
A job is created by an upload. A GPU worker then reports progress,
completion or failure through signed webhooks. The server keeps one
snapshot per job and pushes every change to the job's Socket.IO room.
Clients that join late receive the stored snapshot.

Three implementations of that contract are modelled side by side:

- **The main server** (`apps/server`):
  - `Store` models the job store, with its in-memory and Redis back ends.
  - `Events` models the event contract.
  - `Signature` models the HMAC check.
  - `Server` models the HTTP and socket handlers.
  - `ServerProps` holds the properties proved over whole worlds and
    delivery sequences.
  - Every handler returns its HTTP response and the ordered list of side
    effects it performs: store writes, room and socket emits, joins and
    enqueues. `Server.Run` applies that list, so "written before
    broadcast" can be stated.
- **The Next.js webhook route** (`WebRoute`): a partial column update
  applied to the `jobs` table only where the stored version is lower.
- **The older `apps/api` stack**:
  - `SharedTypes` models the shared types package.
  - `LegacyApi` models the Redis-hash job store, the socket room handlers
    and the queue listeners.
  - `LegacyWebhook` models the webhook route. Its body schema is a
    validator over `Json` values, paired with an encoder.

HMAC-SHA256 (RFC 2104 over SHA-256) is a function parameter `hmac(secret,
body)` returning the hex digest. The following are parameters too:

- the clock (`now`);
- `randomUUID()` (the `jobId` argument of `UploadComplete`);
- the process environment (`Server.Config`);
- whether the database call of the Next.js route fails (`dbFails`).

Progress and the `apps/api` versions are JavaScript numbers, modelled as
`real`. The main server's versions are `int`.

The code behaves as follows, and the model follows it:

- A `complete` webhook stores stage `upload`, although a stage otherwise
  names a processing step.
- An `error` webhook stores progress 100 and clears the stage.
- A terminal job still accepts any newer version. The guard compares
  versions only, so a `failed` job can be overwritten by a newer progress
  event.
- The dev-only advance sets `completed` without files, and may leave
  `error` in place (`ServerProps.AdvanceCanBreakShape`).
- The Next.js route merges columns rather than replacing the snapshot.
  Columns of older events survive (`WebRoute.MergeKeepsOlderColumns`).
- The `apps/api` webhook has no version guard at all
  (`LegacyWebhook.VersionCanRegress`). It compares the signature with `===`
  and only accepts the bare digest (`LegacyWebhook.PrefixedSignatureRejected`).

## Model

| member | source | states |
|---|---|---|
| Common.OrElse | apps/web/app/api/webhooks/modal/route.ts:23 | `a \|\| b` on an optional string yields `a` exactly when it is present and non-empty, else `b` |
| Common.PrefixInjective | apps/server/src/store.ts:22 | prefixing keys with `job:` is injective, so distinct job ids never share a Redis key |
| Signature.StripPrefix | apps/server/src/index.ts:223 | a `sha256=`-prefixed header loses exactly the prefix; any other header is kept whole |
| Signature.TimingSafeEqual | apps/server/src/index.ts:224 | the comparison fails (throws) exactly when the lengths differ, and otherwise is true iff the strings are equal |
| Signature.VerifyHmac | apps/server/src/index.ts:219-228 | acceptance implies the stripped header equals the digest of the body; a header of the wrong length is refused |
| Signature.HexHasNoPrefix | apps/server/src/index.ts:221-223 | a hex digest never starts with `sha256=`, so stripping cannot damage a bare digest |
| Signature.VerifyHmacAcceptsExactly | apps/web/app/api/webhooks/modal/route.ts:44-52 | the check accepts exactly the bare hex digest or `sha256=` followed by it, and nothing else |
| Events.ParseName | apps/web/lib/events.ts:62-68 | a wire name parses only to the event whose name it is |
| Events.NameRoundTrip | apps/web/lib/events.ts:62-68 | every socket event's wire name parses back to that event |
| Events.NamesDistinct | apps/web/lib/events.ts:62-68 | the five socket event names are pairwise distinct |
| Store.Get | apps/server/src/store.ts:11-30 | the memory store returns the mapped snapshot, `null` iff the id is absent; the Redis store returns the snapshot stored under `job:` plus the id, `null` iff the key is absent or its value does not parse |
| Store.CreateStore | apps/server/src/store.ts:37-46 | the memory store is chosen iff `REDIS_URL` is unset or empty, and it starts empty; otherwise a Redis store with prefix `job:` |
| Store.Set | apps/server/src/store.ts:9-35 | after `set`, `get` of that id returns the new snapshot; every other id reads as before; the back end is kept |
| Store.RedisSetRecordsTtl | apps/server/src/store.ts:31-34 | a Redis `set` writes key `prefix + id` with the given TTL, or seven days when none is given |
| Store.MemorySetIgnoresTtl | apps/server/src/store.ts:14-16 | the memory store's `set` does not depend on the TTL |
| Store.SetOverwrites | apps/server/src/store.ts:31-34 | `set` replaces the whole snapshot: stores that differ only at `id` agree afterwards |
| Store.GarbageReadsAsAbsent | apps/server/src/store.ts:21-30 | a Redis value that does not parse as a snapshot reads as `null` |
| Store.FreshStoreIsEmpty | apps/server/src/store.ts:37-46 | a freshly created store over an empty database holds no job, on either back end |
| Server.Seed | apps/server/src/index.ts:37-43 | a new job's snapshot is queued at progress 0 and version 1 with the clock as write time, has no stage, ETA, files or error, and is field-exclusive |
| Server.TtlSec | apps/server/src/index.ts:44 | the TTL is `JOB_TTL_SEC` when set, else seven days (604800 seconds) |
| Server.IsStale | apps/server/src/index.ts:110-111 | an event is stale iff a snapshot is stored and its version is not below the stored one; with nothing stored every event is fresh |
| Server.StaleStaysStale | apps/server/src/index.ts:111 | an event that is stale against a stored snapshot stays stale once a snapshot at least as new is stored |
| Server.Broadcast | apps/server/src/index.ts:128-153 | each known event kind is emitted under its own event name, carrying the received event itself; an unknown kind emits nothing |
| Server.Clamp | apps/server/src/index.ts:121 | clamped progress lies in [0,100], equals the input when already in range, and saturates at 0 and 100 |
| Server.NextSnapshot | apps/server/src/index.ts:116-154 | each event kind yields a snapshot with the event's job id and version, the kind's status, stage, progress, files and error; all are field-exclusive; an unknown type yields none |
| Server.Webhook | apps/server/src/index.ts:99-157 | 401 iff the signature fails, with no effect. An unparsable body gives 500. A stale event gives 200 `ignored: stale` with no effect. An accepted event gives a store write of its snapshot, then a room emit of the event itself |
| Server.UploadComplete | apps/server/src/index.ts:32-52 | answers 202 with the new id; stores a queued snapshot at version 1 and progress 0 with the configured TTL, then emits `job:accepted` with the id and the clock to the job's room, then enqueues the job |
| Server.GetJob | apps/server/src/index.ts:55-60 | 404 iff no snapshot is stored, otherwise 200 with the stored snapshot |
| Server.Advanced | apps/server/src/index.ts:70-87 | the advanced snapshot has version+1 and clamped progress; it is completed iff the raw progress is at least 100, else processing; its stage falls back to the stored stage, then `preprocess`; every other field is carried over |
| Server.DevAdvance | apps/server/src/index.ts:63-96 | 403 in production; 400 without a job id or a numeric progress; 404 for an unknown job; otherwise 200 with the new version and a write of the advanced snapshot, then an emit to the job's room: at progress ≥ 100 a `job:complete` with the job id, empty files, version+1 and the clock, else a `job:progress` with the job id, the resolved stage, the clamped progress, version+1 and the clock |
| Server.Connect | apps/server/src/index.ts:198-207 | a socket without `jobId` is disconnected; otherwise it joins the job's room and is sent the stored snapshot iff one exists |
| ServerProps.RejectedChangesNothing | apps/server/src/index.ts:102-112 | an unauthenticated, unparsable, stale or unknown-type call leaves the whole world unchanged |
| ServerProps.AcceptedEffect | apps/server/src/index.ts:110-154 | an accepted event is strictly newer than the stored snapshot and replaces it; other jobs and rooms are untouched; exactly one message reaches the job's room |
| ServerProps.NeverRegresses | apps/server/src/index.ts:110-112 | no webhook call removes a stored job or lowers its version |
| ServerProps.RedeliveryIsNoOp | apps/server/src/index.ts:110-112 | a second delivery of an applied event, under any accepted signature, is answered `ignored: stale` and changes nothing |
| ServerProps.PersistBeforeBroadcast | apps/server/src/index.ts:127-128 | when a webhook's room emit takes effect, the store already holds the snapshot of the emitted version |
| ServerProps.StepKeepsNewest | apps/server/src/index.ts:110-154 | one delivery of a known event leaves the job stored, at least as new as before and as the event, holding either the old snapshot or the event's |
| ServerProps.ChainNewest | apps/server/src/index.ts:110-112 | along any chain of such deliveries, the last snapshot is at least as new as the first and as every event, and is the first or one an event produced |
| ServerProps.ConvergesOnNewest | apps/server/src/index.ts:110-154 | after any delivery order of events for one job, the stored version is the maximum seen, and the stored snapshot is the start one or one some event produced |
| ServerProps.LateJoinerSeesNewest | apps/server/src/index.ts:198-207 | a socket joining after any deliveries is sent a snapshot whose version is at least every delivered event's |
| ServerProps.WebhookKeepsShape | apps/server/src/index.ts:116-154 | if every stored snapshot is field-exclusive before a webhook call, it still is after |
| ServerProps.CreateThenGet | apps/server/src/index.ts:32-60 | after an upload completes, `GET /api/job/:id` serves the queued seed; the job is enqueued; field exclusivity is kept |
| ServerProps.DevAdvanceEffect | apps/server/src/index.ts:63-96 | a refused advance changes nothing; an accepted one needs a job id, a numeric progress and a stored job, after which `GET /api/job/:id` serves the advanced snapshot at version+1, other jobs and rooms are untouched, and exactly one message reaches the room's members: the completion at version+1 at progress ≥ 100, else the progress payload at version+1 |
| ServerProps.AdvanceCanBreakShape | apps/server/src/index.ts:80-87 | the dev advance to 100 stores a completed snapshot without files, outside the webhook's shape |
| ServerProps.Signed | apps/server/src/index.ts:222-224 | a header of `sha256=` plus the body's digest is authentic |
| ServerProps.OutOfOrderScenario | apps/server/src/index.ts:110-112 | versions delivered as 3, 1, 2 leave the snapshot of version 3; the later two change nothing |
| ServerProps.LifecycleScenario | apps/server/src/index.ts:32-157 | create, progress v2, redelivery, complete v3 and a late error v2 end completed at version 3 with the files |
| WebRoute.BuildUpdate | apps/web/app/api/webhooks/modal/route.ts:22-31 | the update carries the event's version and `ts` (or the clock); per kind it writes exactly the status, stage, progress, ETA, files or error columns of that kind |
| WebRoute.ApplyUpdate | apps/web/app/api/webhooks/modal/route.ts:22-36 | the version and write time always take the update's values; status, stage, progress, ETA, files, error code and error message each take the update's value when the update names that column, and keep the stored value when it does not |
| WebRoute.ConditionalUpdate | apps/web/app/api/webhooks/modal/route.ts:33-38 | only the event's row changes, and only when its stored version is set and strictly lower; a NULL version never matches |
| WebRoute.Handle | apps/web/app/api/webhooks/modal/route.ts:8-42 | unauthorized iff the signature fails; ok iff authentic, parsed and the database call succeeds; only an ok call changes the table, by the conditional update |
| WebRoute.VersionNeverDecreases | apps/web/app/api/webhooks/modal/route.ts:33-38 | no row's version decreases: a NULL version stays NULL, and an ok call leaves a set version of the event's row at the larger of the two versions |
| WebRoute.NullVersionNeverUpdated | apps/web/app/api/webhooks/modal/route.ts:33-38 | a row without a version, as the web upload route inserts it, is left unchanged by every request |
| WebRoute.StaleSilentlyAcknowledged | apps/web/app/api/webhooks/modal/route.ts:33-41 | a stale or duplicate event, or one for a row without a version, is answered `{ok:true}` and leaves the table as it was |
| WebRoute.RedeliveryIsNoOp | apps/web/app/api/webhooks/modal/route.ts:33-41 | redelivering the same event changes nothing more |
| WebRoute.MergeKeepsOlderColumns | apps/web/app/api/webhooks/modal/route.ts:24-38 | both delivery orders of progress v2 and complete v3 end at version 3 and completed, but only one keeps the progress event's ETA |
| SharedTypes.ParseStage | packages/types/src/index.ts:3 | exactly the six stage names parse, each to its own stage |
| SharedTypes.StageRoundTrip | packages/types/src/index.ts:3 | every stage's name parses back to that stage |
| SharedTypes.ParseStatus | packages/types/src/index.ts:16 | exactly the four status names parse, each to its own status |
| SharedTypes.StatusRoundTrip | packages/types/src/index.ts:16 | every status's name parses back to that status |
| SharedTypes.ParseWs | packages/types/src/index.ts:44-56 | a wire name parses only to the socket event whose name it is |
| SharedTypes.WsNamesDistinct | packages/types/src/index.ts:44-56 | the eight socket event names are pairwise distinct, so no client-to-server name is a server-to-client name |
| LegacyApi.Trunc | apps/api/src/index.ts:113-115 | a number's integer part rounded toward zero: within one below a non-negative number, within one above a negative one |
| LegacyApi.ParseIntOfNumber | apps/api/src/index.ts:113-115 | `parseInt` of a number's `toString` is its truncation in plain notation; in exponent notation (magnitude at least 1e21, or non-zero below 1e-6) it is the number's first significant digit, with the number's sign |
| LegacyApi.Magnitude | apps/api/src/index.ts:113-115 | the decimal exponent of a number of at least 1: shifted right by it, the number lies in [1, 10) |
| LegacyApi.DigitFromAbove | apps/api/src/index.ts:113-115 | the first significant digit of a number of at least 1 is the integer part of the number shifted into [1, 10), between 1 and 9 |
| LegacyApi.MagnitudeBelow | apps/api/src/index.ts:113-115 | a number strictly between 0 and 1 shifted left by at least one place lands in [1, 10) |
| LegacyApi.DigitFromBelow | apps/api/src/index.ts:113-115 | the first significant digit of a number strictly between 0 and 1 is the integer part of the number shifted into [1, 10), between 1 and 9 |
| LegacyApi.ParseIntExact | apps/api/src/index.ts:115 | an integer reads back through `toString` and `parseInt` exactly iff its magnitude is below 1e21 |
| LegacyApi.UpdateJobInRedis | apps/api/src/index.ts:165-178 | only the job's hash changes. Stage and message are written when non-empty; progress and ETA when present. The version is the update's own when non-zero, else the clock. The write time and the 7-day TTL are set. Status, files and error are kept |
| LegacyApi.GetJobSnapshot | apps/api/src/index.ts:104-120 | `null` iff the hash has no non-empty status. Missing progress and version read as 0 and a missing write time as the clock. The version and the ETA, when present, read back truncated toward zero outside exponent notation, and exactly when integral and below 1e21; a missing ETA stays missing |
| LegacyApi.UpdateKeepsVisibility | apps/api/src/index.ts:104-106 | merging an update never makes a job appear or disappear for readers |
| LegacyApi.UpdateThenRead | apps/api/src/index.ts:165-178 | a visible job reads back the progress just written and the write time as `ts`; the version just written reads back exactly iff its magnitude is below 1e21; a written ETA reads back through `parseInt`, truncated outside exponent notation, and an unwritten one reads as before |
| LegacyApi.SendSnapshot | apps/api/src/index.ts:78-81 | the socket is sent the job's snapshot iff the job is visible; nothing else changes |
| LegacyApi.Join | apps/api/src/index.ts:73-82 | the socket joins exactly that room; nothing is sent for an invisible job, and for a visible one exactly one `job:snapshot` carrying its read snapshot is appended, addressed to that socket alone |
| LegacyApi.Leave | apps/api/src/index.ts:85-88 | the socket leaves exactly that room, an emptied room is dropped, and nothing is sent |
| LegacyApi.RequestSnapshot | apps/api/src/index.ts:91-96 | membership is unchanged; nothing is sent for an invisible job, and for a visible one exactly one `job:snapshot` carrying its read snapshot is appended, addressed to that socket alone |
| LegacyApi.JoinLeaveRestores | apps/api/src/index.ts:73-88 | joining then leaving restores every room's membership for a socket that was not in it |
| LegacyApi.QueueActive | apps/api/src/index.ts:127-139 | a started job gets stage `preprocess`, progress 0, the start message and the clock as version; every other job's hash is untouched; the same record (job id, `preprocess`, 0, the start message, the clock as version and `ts`) is sent as `job:progress` to the job's room |
| LegacyApi.QueueCompleted | apps/api/src/index.ts:141-151 | a visible job's room is sent a completion carrying the stored files; an invisible one gets nothing; the hash is untouched |
| LegacyApi.QueueFailed | apps/api/src/index.ts:153-162 | one non-retryable `JOB_FAILED` `job:error` message for the job, stamped with the clock, goes to the job's room members, with the failure reason or the default message; the hash is untouched |
| LegacyApi.QueueActiveThenRead | apps/api/src/index.ts:127-139 | after a job starts, its visibility is unchanged and every other job reads as before; a visible job reads back stage `preprocess`, progress 0, the start message and the clock as version and `ts` |
| LegacyApi.QueueActiveCanRegress | apps/api/src/index.ts:127-139 | a job stored at version 2000 reads back the earlier clock value after a start event, since the listener has no version guard |
| LegacyApi.QueueNotifiersLeaveJobs | apps/api/src/index.ts:141-162 | the completed and failed listeners leave every job's read snapshot unchanged; the completion message carries the files of the snapshot just read |
| LegacyWebhook.OptString | apps/api/src/routes/webhook.ts:28 | an optional string key is valid iff it is absent or a string |
| LegacyWebhook.OptNumber | apps/api/src/routes/webhook.ts:29 | an optional number key is valid iff it is absent or a number |
| LegacyWebhook.ValidateKind | apps/api/src/routes/webhook.ts:26 | `event` is valid iff it is one of the three kind names, and it validates to that kind |
| LegacyWebhook.Validate | apps/api/src/routes/webhook.ts:24-42 | an object body validates iff its `jobId`, `event`, `data` and `timestamp` keys each validate, whatever other keys it has; the payload's id, kind, timestamp and data are those keys' validated values; its files never carry `zip` |
| LegacyWebhook.UnknownKeysIgnored | apps/api/src/routes/webhook.ts:24-42 | adding or replacing a key outside the schema does not change the validation result |
| LegacyWebhook.FilesRoundTrip | apps/api/src/routes/webhook.ts:31-36 | stem files without `zip` are accepted back from their JSON |
| LegacyWebhook.DataRoundTrip | apps/api/src/routes/webhook.ts:27-38 | every schema-shaped data record is accepted back from its JSON |
| LegacyWebhook.ValidateEncodeRoundTrip | apps/api/src/routes/webhook.ts:24-42 | every payload the schema can produce validates back from its canonical JSON |
| LegacyWebhook.ValidateNormalises | apps/api/src/routes/webhook.ts:24-42 | a validated body and the canonical JSON of its payload validate to the same payload |
| LegacyWebhook.AcceptedByMainServer | apps/api/src/routes/webhook.ts:115-121 | the route accepts only the exact digest, so for a lower-case hex digest every header it accepts the main server's check accepts too |
| LegacyWebhook.ProgressOf | apps/api/src/routes/webhook.ts:47-54 | the progress record carries the body's job id, its stage or `separate` when absent or empty, its progress or 0, its message, its timestamp as version and the clock as `ts` |
| LegacyWebhook.Dispatch | apps/api/src/routes/webhook.ts:45-103 | rooms and every other job's hash are untouched; the job's write time becomes the clock. Progress: the record's stage, progress and message, the timestamp (or the clock when 0) as version, and exactly the `job:progress` record sent to the room. Complete: stage `complete`, progress 100, the completion message, the clock as version; status `completed` and the files only with `redis` bound; a `job:complete` with the event's files. Error: stage `error`, the error or `Unknown error` as message, the clock as version; status `failed` and the error blob only with `redis` bound; a non-retryable `PROCESSING_ERROR`. At most one message, to the job's room; as written only for progress and for complete without files, with `redis` bound always |
| LegacyWebhook.Handle | apps/api/src/routes/webhook.ts:10-112 | 401 iff the header is not exactly the digest, changing nothing. Otherwise 200 always; a body that fails to parse or validate changes nothing |
| LegacyWebhook.HandleIntended | apps/api/src/routes/webhook.ts:10-112 | the same route with `redis` in scope: 401 iff the header is not the digest, else 200; rooms are never changed |
| LegacyWebhook.PrefixedSignatureRejected | apps/api/src/routes/webhook.ts:115-121 | a `sha256=`-prefixed digest is refused, unlike on the main server |
| LegacyWebhook.ProgressWritesWithoutGuard | apps/api/src/routes/webhook.ts:46-58 | a progress event writes its stage (default `separate`), its progress (default 0) and its timestamp as the version, and broadcasts to the room, with no version guard |
| LegacyWebhook.VersionCanRegress | apps/api/src/routes/webhook.ts:46-58 | a job stored at version 1000 drops to version 5 on a progress event stamped 5 |
| LegacyWebhook.CompleteWithFilesAsWritten | apps/api/src/routes/webhook.ts:61-72 | as written, a complete event with files leaves status and files untouched and notifies nobody |
| LegacyWebhook.CompleteWithFilesIntended | apps/api/src/routes/webhook.ts:61-79 | with `redis` bound, the job reads back completed with the event's files at progress 100, and the room is sent `job:complete` |
| LegacyWebhook.ErrorAsWritten | apps/api/src/routes/webhook.ts:82-92 | as written, an error event leaves the status untouched and notifies nobody |
| LegacyWebhook.ErrorIntended | apps/api/src/routes/webhook.ts:82-101 | with `redis` bound, the job reads back failed with the stored error, and the room is sent a non-retryable error |

## Left out

- HMAC-SHA256 and hex encoding are not modelled. They are the parameter `hmac`; only `VerifyHmacAcceptsExactly` assumes the digest is lower-case hex.
- `timingSafeEqual` compares byte buffers. The model compares strings, which agree for the ASCII headers involved.
- JSON parsing and serialisation are not modelled. The main server and the Next.js route receive an already-typed event, or `None` when `JSON.parse` throws. Only the `apps/api` schema is modelled, over a `Json` value.
- A body that parses but whose fields have the wrong JSON types (a string version, a missing `jobId`) is not modelled for the main server and the Next.js route; their casts are unchecked.
- NaN, infinities and `-0` are not modelled. Numbers are exact reals, so floating-point rounding is not modelled. `toString`/`parseFloat` are modelled as exact. `parseInt` of a number's `toString` is modelled by `LegacyApi.ParseIntOfNumber`, including JavaScript's switch to exponent notation.
- `LegacyApi.GetJobSnapshot`: a stored number is read back through its exact decimal form. JavaScript's shortest round-trip rendering of binary floating-point values is not modelled.
- `LegacyApi.QueueActiveThenRead`: the version read-back is stated only for clock values below 1e21. Above that `parseInt` reads a single digit (`LegacyApi.ParseIntExact`).
- Concurrency is not modelled. Each handler is one atomic step, while the source awaits between `store.get` and `store.set`. Two concurrent webhooks can both pass the guard and write in either order.
- Key expiry is not modelled; the TTL is recorded beside the value.
- The Redis connection (lazy connect, errors) is not modelled. The Supabase client is reduced to the `dbFails` flag.
- The upload queue (`enqueueSeparationJob`, apps/server/src/queue.ts) is reduced to an `Enqueue` effect; queue.ts is not part of this model.
- The `apps/api` upload and job routes, the web upload, job and third-party routes, the worker, scripts, UI and configuration are not part of this model.
- Columns of the `jobs` table that the route never writes are not modelled.
- The `jobs` table's schema, including any default for `version`, is not part of this model. A row's version may be NULL, since the web upload route inserts rows without one. A table without a `version` column makes the update fail; that case is the `dbFails` flag.
- The socket `disconnect` handlers are no-ops and are not modelled. So are HTTP/Socket.IO transport details, CORS and the Node-to-Fetch adapter. The adapter's 500 on an exception is modelled as the `InternalServerError` body.
- A Socket.IO `jobId` query given as an array is not modelled; it is a string or absent.
- `Server.Connect`: the snapshot is read at connection time, in the same step as the join. The source sends it later, when its `store.get` resolves.
- `LegacyApi.QueueCompleted`: the `snapshot.files!` assertion is modelled as passing whatever the hash holds, `undefined` included.

## Findings

| source | as written | input that shows it | evidently intended | confidence | as-written member | corrected member |
|---|---|---|---|---|---|---|
| apps/api/src/routes/webhook.ts:70-71 | `redis` is used but never imported in the route module. The first `redis.hset` of the complete branch throws a ReferenceError, and the catch answers 200. The job is never marked completed, its files are never stored and `job:complete` is never emitted | a correctly signed body `{"jobId":"j","event":"complete","data":{"files":{"drums":"u"}},"timestamp":1}` | store the files, set status `completed`, then emit `job:complete` to the room | high (not executed) | LegacyWebhook.CompleteWithFilesAsWritten | LegacyWebhook.CompleteWithFilesIntended |
| apps/api/src/routes/webhook.ts:88-92 | the same unbound `redis` in the error branch. Every error event stops after the stage/message merge: status `failed` and the error blob are never stored and `job:error` is never emitted | a correctly signed body `{"jobId":"j","event":"error","data":{"error":"x"},"timestamp":1}` | set status `failed`, store the error blob, then emit a non-retryable `job:error` | high (not executed) | LegacyWebhook.ErrorAsWritten | LegacyWebhook.ErrorIntended |

=== FILE: common.dfy ===
/** Small shared vocabulary: an optional value and a few string helpers
    used by the signature check and the Redis key scheme. */
module Common {

  /** A value that may be absent (`undefined` / `null` in the source). */
  datatype Option<+T> = None | Some(value: T) {
    function GetOr(default: T): T {
      match this
      case Some(v) => v
      case None => default
    }
  }

  /** `s.startsWith(p)` */
  predicate StartsWith(s: string, p: string) {
    |p| <= |s| && s[..|p|] == p
  }

  /** A lower-case hexadecimal digit, as produced by `digest('hex')`. */
  predicate IsHexDigit(c: char) {
    ('0' <= c <= '9') || ('a' <= c <= 'f')
  }

  predicate IsLowerHex(s: string) {
    forall i :: 0 <= i < |s| ==> IsHexDigit(s[i])
  }

  /** JavaScript truthiness of an optional string: present and non-empty. */
  predicate Truthy(s: Option<string>) {
    s.Some? && s.value != ""
  }

  /** `a || b` on optional strings. */
  function OrElse(a: Option<string>, b: string): (r: string)
    ensures Truthy(a) ==> r == a.value
    ensures !Truthy(a) ==> r == b
  {
    if a.Some? && a.value != "" then a.value else b
  }

  /** Prefixing a key is injective: two ids with the same prefixed key are the same id. */
  lemma {:induction false} PrefixInjective(p: string, a: string, b: string)
    requires p + a == p + b
    ensures a == b
  {
    assert |a| == |b|;
    forall i | 0 <= i < |a|
      ensures a[i] == b[i]
    {
      assert (p + a)[|p| + i] == a[i];
      assert (p + b)[|p| + i] == b[i];
    }
  }
}

=== FILE: events.dfy ===
/** The event contract of the main server (apps/web/lib/events.ts, a local
    copy of the server's own events file): job snapshots, the inbound webhook
    payloads and the five socket event names. */
module Events {
  import opened Common

  datatype JobStatus = Queued | Processing | Completed | Failed

  datatype JobStage = Preprocess | Separate | Postprocess | Upload

  /** Output artefacts by stem; every key is optional. */
  datatype JobFiles = JobFiles(
    drums: Option<string>,
    bass: Option<string>,
    vocals: Option<string>,
    other: Option<string>,
    zip: Option<string>)

  const NoFiles := JobFiles(None, None, None, None, None)

  datatype JobError = JobError(code: string, message: string, retryable: Option<bool>)

  /** `progress` is documented as 0..100 and `version` as monotonically
      increasing; neither is enforced by the type, see `ProgressInRange`. */
  datatype JobSnapshot = JobSnapshot(
    jobId: string,
    status: JobStatus,
    stage: Option<JobStage>,
    progress: real,
    etaSec: Option<real>,
    files: Option<JobFiles>,
    version: int,
    updatedAt: string,
    error: Option<JobError>)

  predicate ProgressInRange(p: real) {
    0.0 <= p <= 100.0
  }

  /** The shape the webhook path keeps: progress in range, `files` exactly on
      completed snapshots and `error` exactly on failed ones. */
  predicate FieldsExclusive(s: JobSnapshot) {
    && ProgressInRange(s.progress)
    && (s.files.Some? <==> s.status == Completed)
    && (s.error.Some? <==> s.status == Failed)
  }

  datatype AcceptedPayload = AcceptedPayload(jobId: string, queuedAt: string)

  datatype ProgressPayload = ProgressPayload(
    jobId: string, stage: JobStage, progress: real, etaSec: Option<real>, version: int, ts: string)

  datatype CompletePayload = CompletePayload(jobId: string, files: JobFiles, version: int, ts: string)

  datatype ErrorPayload = ErrorPayload(
    jobId: string, code: string, message: string, retryable: Option<bool>, version: int, ts: string)

  /** A parsed webhook body, discriminated by its `type` field. `Unknown`
      is a body that parsed but whose `type` is none of the three kinds. */
  datatype WebhookEvent =
    | ProgressEvent(p: ProgressPayload)
    | CompleteEvent(c: CompletePayload)
    | ErrorEvent(e: ErrorPayload)
    | Unknown(unknownJobId: string, unknownVersion: int)
  {
    function JobId(): string {
      match this
      case ProgressEvent(p) => p.jobId
      case CompleteEvent(c) => c.jobId
      case ErrorEvent(e) => e.jobId
      case Unknown(id, _) => id
    }

    function Version(): int {
      match this
      case ProgressEvent(p) => p.version
      case CompleteEvent(c) => c.version
      case ErrorEvent(e) => e.version
      case Unknown(_, v) => v
    }
  }

  datatype EventName = Accepted | Progress | Snapshot | Complete | Error

  /** The wire name of each socket event (`Events` object). */
  function Name(e: EventName): string {
    match e
    case Accepted => "job:accepted"
    case Progress => "job:progress"
    case Snapshot => "job:snapshot"
    case Complete => "job:complete"
    case Error => "job:error"
  }

  /** The inverse of `Name`, as a client dispatching on the wire name would use it. */
  function ParseName(s: string): (r: Option<EventName>)
    ensures r.Some? ==> Name(r.value) == s
  {
    if s == "job:accepted" then Some(Accepted)
    else if s == "job:progress" then Some(Progress)
    else if s == "job:snapshot" then Some(Snapshot)
    else if s == "job:complete" then Some(Complete)
    else if s == "job:error" then Some(Error)
    else None
  }

  /** Every name parses back to its event, so the five names are pairwise distinct. */
  lemma NameRoundTrip(e: EventName)
    ensures ParseName(Name(e)) == Some(e)
  {
  }

  lemma NamesDistinct(a: EventName, b: EventName)
    ensures Name(a) == Name(b) ==> a == b
  {
    NameRoundTrip(a);
    NameRoundTrip(b);
  }

  /** A message sent over a socket, tagged with the payload it carries. */
  datatype Message =
    | AcceptedMsg(accepted: AcceptedPayload)
    | SnapshotMsg(snapshot: JobSnapshot)
    | ProgressMsg(progress: ProgressPayload)
    | CompleteMsg(complete: CompletePayload)
    | ErrorMsg(error: ErrorPayload)
}

=== FILE: json.dfy ===
/** A parsed JSON value: what `JSON.parse` hands to the schema validator.
    An absent object key is how `undefined` appears; `null` is a value. */
module Json {
  datatype Json =
    | JNull
    | JBool(b: bool)
    | JNum(n: real)
    | JStr(s: string)
    | JArr(items: seq<Json>)
    | JObj(fields: map<string, Json>)
}

=== FILE: legacy_api.dfy ===
/** The older `apps/api` server (apps/api/src/index.ts): job state kept as a
    Redis hash under `job:<id>` and merged field by field, a decoder from
    hash to snapshot, the room handlers of the socket layer and the queue
    event listeners.

    Hash fields are typed here instead of strings: a number field holds the
    number whose `toString()` was written, and reading it with `parseFloat`
    gives that number back. Reading it with `parseInt` (`ParseIntOfNumber`)
    gives its integer part, except where `toString()` switches to exponent
    notation and `parseInt` stops at the mantissa's first digit. */
module LegacyApi {
  import opened Common
  import opened SharedTypes

  const JobTtlSec: int := 7 * 24 * 60 * 60

  const KeyPrefix: string := "job:"

  /** `'処理を開始しています...'` */
  const StartMessage: string := "\U{51E6}\U{7406}\U{3092}\U{958B}\U{59CB}\U{3057}\U{3066}\U{3044}\U{307E}\U{3059}..."

  /** `'処理に失敗しました'` */
  const FailedMessage: string := "\U{51E6}\U{7406}\U{306B}\U{5931}\U{6557}\U{3057}\U{307E}\U{3057}\U{305F}"

  /** The fields of a job hash; `None` is a missing field. */
  datatype JobHash = JobHash(
    status: Option<string>,
    stage: Option<string>,
    progress: Option<real>,
    message: Option<string>,
    etaSec: Option<real>,
    version: Option<real>,
    updatedAt: Option<int>,
    files: Option<StemFiles>,
    error: Option<ErrorBlob>)

  const EmptyHash := JobHash(None, None, None, None, None, None, None, None, None)

  /** A key's hash and the TTL last set on it, if any. */
  datatype HashEntry = HashEntry(hash: JobHash, ttlSec: Option<int>)

  type RedisDb = map<string, HashEntry>

  function Key(jobId: string): string {
    KeyPrefix + jobId
  }

  function HashOf(db: RedisDb, jobId: string): JobHash {
    if Key(jobId) in db then db[Key(jobId)].hash else EmptyHash
  }

  /** A number's integer part, rounded toward zero. */
  function Trunc(x: real): (r: int)
    ensures 0.0 <= x ==> r as real <= x < r as real + 1.0
    ensures x < 0.0 ==> r as real - 1.0 < x <= r as real
  {
    if x >= 0.0 then x.Floor else -((-x).Floor)
  }

  /** 1e21, the magnitude from which numbers are written in exponent notation. */
  const ExponentBound: real := 1_000_000_000_000_000_000_000.0

  /** `Number.prototype.toString()` writes a number in exponent notation
      (`1e+21`, `1.5e-7`) iff its magnitude is at least 1e21 or below 1e-6. */
  predicate ExponentForm(x: real) {
    x <= -ExponentBound || ExponentBound <= x
    || (x != 0.0 && -0.000_001 < x < 0.000_001)
  }

  /** `x / 10^e`, one decimal place at a time. */
  function ShiftRight(x: real, e: nat): real
    decreases e
  {
    if e == 0 then x else ShiftRight(x / 10.0, e - 1)
  }

  /** `x · 10^e`, one decimal place at a time. */
  function ShiftLeft(x: real, e: nat): real
    decreases e
  {
    if e == 0 then x else ShiftLeft(x * 10.0, e - 1)
  }

  /** The decimal exponent of a number of at least 1: shifted right by it,
      the number lies in [1, 10). */
  function Magnitude(x: real): (e: nat)
    requires x >= 1.0
    ensures 1.0 <= ShiftRight(x, e) < 10.0
    decreases x.Floor
  {
    if x < 10.0 then 0 else Magnitude(x / 10.0) + 1
  }

  /** The first significant digit of a number of at least 1: the integer
      part of the number shifted right by its exponent. */
  function DigitFromAbove(x: real): (d: int)
    requires x >= 1.0
    ensures 1 <= d <= 9
    ensures d as real <= ShiftRight(x, Magnitude(x)) < (d + 1) as real
    decreases x.Floor
  {
    if x < 10.0 then x.Floor else DigitFromAbove(x / 10.0)
  }

  lemma ReciprocalShrinks(x: real)
    requires 0.0 < x && x * 10.0 < 1.0
    ensures 0 <= (1.0 / (x * 10.0)).Floor < (1.0 / x).Floor
  {
    var a := 1.0 / x;
    assert a * x == 1.0;
    assert 1.0 / (x * 10.0) == a / 10.0 by {
      assert (a / 10.0) * (x * 10.0) == a * x;
    }
    assert a > 10.0 by {
      assert a * (x * 10.0) == 10.0;
    }
  }

  /** The number of places a number strictly between 0 and 1 must be
      shifted left to lie in [1, 10). */
  function MagnitudeBelow(x: real): (e: nat)
    requires 0.0 < x < 1.0
    ensures e >= 1 && 1.0 <= ShiftLeft(x, e) < 10.0
    decreases (1.0 / x).Floor
  {
    if x * 10.0 >= 1.0 then 1
    else
      ReciprocalShrinks(x);
      MagnitudeBelow(x * 10.0) + 1
  }

  /** The first significant digit of a number strictly between 0 and 1: the
      integer part of the number shifted left by `MagnitudeBelow`. */
  function DigitFromBelow(x: real): (d: int)
    requires 0.0 < x < 1.0
    ensures 1 <= d <= 9
    ensures d as real <= ShiftLeft(x, MagnitudeBelow(x)) < (d + 1) as real
    decreases (1.0 / x).Floor
  {
    if x * 10.0 >= 1.0 then DigitFromAbove(x * 10.0)
    else
      ReciprocalShrinks(x);
      DigitFromBelow(x * 10.0)
  }

  /** `d` is the first significant digit of the positive number `x`. */
  predicate LeadingDigit(d: int, x: real)
    requires x > 0.0
  {
    if x >= 1.0 then d as real <= ShiftRight(x, Magnitude(x)) < (d + 1) as real
    else d as real <= ShiftLeft(x, MagnitudeBelow(x)) < (d + 1) as real
  }

  /** `parseInt(x.toString())`: the integer part, or the signed first digit of
      the mantissa when the rendering is in exponent notation. */
  function ParseIntOfNumber(x: real): (r: int)
    ensures !ExponentForm(x) ==> r == Trunc(x)
    ensures ExponentForm(x) && x > 0.0 ==> 1 <= r <= 9 && LeadingDigit(r, x)
    ensures ExponentForm(x) && x < 0.0 ==> -9 <= r <= -1 && LeadingDigit(-r, -x)
  {
    if !ExponentForm(x) then Trunc(x)
    else if x >= 1.0 then DigitFromAbove(x)
    else if x > 0.0 then DigitFromBelow(x)
    else if x <= -1.0 then -DigitFromAbove(-x)
    else -DigitFromBelow(-x)
  }

  /** An integer read back with `parseInt` is itself exactly when its
      magnitude is below 1e21. */
  lemma ParseIntExact(n: int)
    ensures ParseIntOfNumber(n as real) == n
            <==> -ExponentBound < n as real < ExponentBound
  {
    if -ExponentBound < n as real < ExponentBound {
      assert !ExponentForm(n as real);
      if n < 0 {
        assert (-(n as real)).Floor == -n;
      }
    }
  }

  /** `Partial<JobProgress>` as passed to `updateJobInRedis` (the `jobId` and
      `ts` fields are not written and are left out). */
  datatype ProgressUpdate = ProgressUpdate(
    stage: Option<string>,
    progress: Option<real>,
    message: Option<string>,
    etaSec: Option<real>,
    version: Option<real>)

  function Written<T>(cond: bool, v: Option<T>, old_: Option<T>): Option<T>
    requires cond ==> v.Some?
  {
    if cond then v else old_
  }

  /** `updateJobInRedis(jobId, update)` at clock `now` (ms): one `MULTI` that
      merges the given fields into the hash and refreshes the 7-day TTL. */
  function UpdateJobInRedis(db: RedisDb, jobId: string, u: ProgressUpdate, now: int): (r: RedisDb)
    ensures r.Keys == db.Keys + {Key(jobId)}
    ensures forall k :: k in db && k != Key(jobId) ==> r[k] == db[k]
    ensures r[Key(jobId)].ttlSec == Some(JobTtlSec)
    ensures forall other :: other != jobId ==> HashOf(r, other) == HashOf(db, other)
    ensures var h, h' := HashOf(db, jobId), HashOf(r, jobId);
            && h'.stage == (if Truthy(u.stage) then u.stage else h.stage)
            && h'.progress == (if u.progress.Some? then u.progress else h.progress)
            && h'.message == (if Truthy(u.message) then u.message else h.message)
            && h'.etaSec == (if u.etaSec.Some? then u.etaSec else h.etaSec)
            && h'.version == Some(if u.version.Some? && u.version.value != 0.0 then u.version.value else now as real)
            && h'.updatedAt == Some(now)
            && h'.status == h.status && h'.files == h.files && h'.error == h.error
  {
    var h := HashOf(db, jobId);
    var h' := h.(stage := Written(Truthy(u.stage), u.stage, h.stage),
                 progress := Written(u.progress.Some?, u.progress, h.progress),
                 message := Written(Truthy(u.message), u.message, h.message),
                 etaSec := Written(u.etaSec.Some?, u.etaSec, h.etaSec),
                 version := Some(if u.version.Some? && u.version.value != 0.0 then u.version.value else now as real),
                 updatedAt := Some(now));
    var r := db[Key(jobId) := HashEntry(h', Some(JobTtlSec))];
    assert forall other :: other != jobId ==> HashOf(r, other) == HashOf(db, other) by {
      forall other | other != jobId
        ensures HashOf(r, other) == HashOf(db, other)
      {
        if Key(other) == Key(jobId) {
          PrefixInjective(KeyPrefix, other, jobId);
        }
      }
    }
    r
  }

  /** `getJobSnapshot(jobId)` with clock `now` (ms): `null` unless the hash has a
      non-empty `status`; missing `progress` and `version` read as 0 and a
      missing `updatedAt` as the clock. */
  function GetJobSnapshot(db: RedisDb, jobId: string, now: int): (r: Option<JobSnapshot>)
    ensures r.None? <==> !Truthy(HashOf(db, jobId).status)
    ensures r.Some? ==>
              var h := HashOf(db, jobId);
              && r.value.jobId == jobId
              && r.value.status == h.status.value
              && (h.progress.None? ==> r.value.progress == 0.0)
              && (h.progress.Some? ==> r.value.progress == h.progress.value)
              && (h.version.None? ==> r.value.version == 0)
              && (h.version.Some? && !ExponentForm(h.version.value) ==> r.value.version == Trunc(h.version.value))
              && (h.version.Some? && h.version.value == h.version.value.Floor as real
                  && -ExponentBound < h.version.value < ExponentBound ==>
                    r.value.version as real == h.version.value)
              && (h.etaSec.None? ==> r.value.etaSec.None?)
              && (h.etaSec.Some? ==> r.value.etaSec.Some?)
              && (h.etaSec.Some? && !ExponentForm(h.etaSec.value) ==> r.value.etaSec.value == Trunc(h.etaSec.value))
              && (h.etaSec.Some? && h.etaSec.value == h.etaSec.value.Floor as real
                  && -ExponentBound < h.etaSec.value < ExponentBound ==>
                    r.value.etaSec.value as real == h.etaSec.value)
              && r.value.ts == h.updatedAt.GetOr(now)
  {
    var h := HashOf(db, jobId);
    if !Truthy(h.status) then None
    else
      var version := h.version.GetOr(0.0);
      assert version == version.Floor as real && -ExponentBound < version < ExponentBound ==>
               ParseIntOfNumber(version) as real == version by {
        ParseIntExact(version.Floor);
      }
      var eta := h.etaSec.GetOr(0.0);
      assert eta == eta.Floor as real && -ExponentBound < eta < ExponentBound ==>
               ParseIntOfNumber(eta) as real == eta by {
        ParseIntExact(eta.Floor);
      }
      Some(JobSnapshot(
      jobId,
      h.status.value,
      h.stage,
      h.progress.GetOr(0.0),
      if h.etaSec.Some? then Some(ParseIntOfNumber(h.etaSec.value)) else None,
      h.message,
      ParseIntOfNumber(version),
      h.updatedAt.GetOr(now),
      h.files,
      h.error))
  }

  /** The merge never creates or clears a job's visibility: only the
      `status` field decides it, and `updateJobInRedis` never writes it. */
  lemma UpdateKeepsVisibility(db: RedisDb, jobId: string, u: ProgressUpdate, now: int, t: int)
    ensures GetJobSnapshot(UpdateJobInRedis(db, jobId, u, now), jobId, t).Some?
            <==> GetJobSnapshot(db, jobId, t).Some?
  {
  }

  /** Round trip through the hash: a visible job reads back the progress
      just written and the write time as its `ts`; an integral version reads
      back as itself iff its magnitude is below 1e21. */
  lemma UpdateThenRead(db: RedisDb, jobId: string, u: ProgressUpdate, now: int, t: int, v: int)
    requires Truthy(HashOf(db, jobId).status)
    requires u.progress.Some?
    requires u.version == Some(v as real) && v != 0
    ensures var s := GetJobSnapshot(UpdateJobInRedis(db, jobId, u, now), jobId, t);
            && s.Some?
            && s.value.progress == u.progress.value
            && (s.value.version == v <==> -ExponentBound < v as real < ExponentBound)
            && s.value.ts == now
            && (u.etaSec.None? ==> s.value.etaSec == GetJobSnapshot(db, jobId, t).value.etaSec)
            && (u.etaSec.Some? ==> s.value.etaSec == Some(ParseIntOfNumber(u.etaSec.value)))
            && (u.etaSec.Some? && !ExponentForm(u.etaSec.value) ==> s.value.etaSec == Some(Trunc(u.etaSec.value)))
  {
    var h' := HashOf(UpdateJobInRedis(db, jobId, u, now), jobId);
    assert h'.version == Some(v as real);
    ParseIntExact(v);
  }

  // Socket layer

  type ConnId = string

  datatype ApiMessage =
    | SnapshotMsg(snapshot: JobSnapshot)
    | ProgressMsg(progress: JobProgress)
    | CompleteMsg(jobId: string, files: Option<StemFiles>, ts: int)
    | ErrorMsg(error: JobError)

  datatype Delivery = Delivery(to: set<ConnId>, event: WsEvent, msg: ApiMessage)

  datatype ApiWorld = ApiWorld(db: RedisDb, rooms: map<string, set<ConnId>>, sent: seq<Delivery>)

  function Members(rooms: map<string, set<ConnId>>, room: string): set<ConnId> {
    if room in rooms then rooms[room] else {}
  }

  /** Send the job's snapshot to one socket, if the job is visible. */
  function SendSnapshot(w: ApiWorld, conn: ConnId, jobId: string, now: int): (r: ApiWorld)
    ensures r.db == w.db && r.rooms == w.rooms
    ensures GetJobSnapshot(w.db, jobId, now).None? ==> r.sent == w.sent
    ensures GetJobSnapshot(w.db, jobId, now).Some? ==>
              r.sent == w.sent + [Delivery({conn}, WsSnapshot, SnapshotMsg(GetJobSnapshot(w.db, jobId, now).value))]
  {
    match GetJobSnapshot(w.db, jobId, now)
    case None => w
    case Some(s) => w.(sent := w.sent + [Delivery({conn}, WsSnapshot, SnapshotMsg(s))])
  }

  /** `job:join`: join the room, then send the snapshot if one exists. */
  function Join(w: ApiWorld, conn: ConnId, jobId: string, now: int): (r: ApiWorld)
    ensures Members(r.rooms, jobId) == Members(w.rooms, jobId) + {conn}
    ensures forall room :: room != jobId ==> Members(r.rooms, room) == Members(w.rooms, room)
    ensures r.db == w.db
    ensures GetJobSnapshot(w.db, jobId, now).None? ==> r.sent == w.sent
    ensures GetJobSnapshot(w.db, jobId, now).Some? ==>
              r.sent == w.sent + [Delivery({conn}, WsSnapshot, SnapshotMsg(GetJobSnapshot(w.db, jobId, now).value))]
  {
    SendSnapshot(w.(rooms := w.rooms[jobId := Members(w.rooms, jobId) + {conn}]), conn, jobId, now)
  }

  /** `job:leave`: leave the room; an emptied room is dropped. */
  function Leave(w: ApiWorld, conn: ConnId, jobId: string): (r: ApiWorld)
    ensures Members(r.rooms, jobId) == Members(w.rooms, jobId) - {conn}
    ensures forall room :: room != jobId ==> Members(r.rooms, room) == Members(w.rooms, room)
    ensures jobId in r.rooms ==> r.rooms[jobId] != {}
    ensures r.db == w.db && r.sent == w.sent
  {
    var left := Members(w.rooms, jobId) - {conn};
    w.(rooms := if left == {} then w.rooms - {jobId} else w.rooms[jobId := left])
  }

  /** `job:request-snapshot`: send the snapshot if one exists; membership is unchanged. */
  function RequestSnapshot(w: ApiWorld, conn: ConnId, jobId: string, now: int): (r: ApiWorld)
    ensures r.rooms == w.rooms && r.db == w.db
    ensures GetJobSnapshot(w.db, jobId, now).None? ==> r.sent == w.sent
    ensures GetJobSnapshot(w.db, jobId, now).Some? ==>
              r.sent == w.sent + [Delivery({conn}, WsSnapshot, SnapshotMsg(GetJobSnapshot(w.db, jobId, now).value))]
  {
    SendSnapshot(w, conn, jobId, now)
  }

  /** Joining and then leaving restores the room, for a socket that was not in it. */
  lemma JoinLeaveRestores(w: ApiWorld, conn: ConnId, jobId: string, now: int)
    requires conn !in Members(w.rooms, jobId)
    ensures forall room :: Members(Leave(Join(w, conn, jobId, now), conn, jobId).rooms, room) == Members(w.rooms, room)
  {
  }

  // Queue events

  function ToUpdate(p: JobProgress): ProgressUpdate {
    ProgressUpdate(Some(p.stage), Some(p.progress), p.message, p.etaSec, Some(p.version))
  }

  /** The queue's `active` event: mark the job as in `preprocess` at 0%,
      then broadcast that progress to the job's room. */
  function QueueActive(w: ApiWorld, jobId: string, now: int): (r: ApiWorld)
    ensures var h := HashOf(r.db, jobId);
            && h.stage == Some(StageName(Preprocess))
            && h.progress == Some(0.0)
            && h.message == Some(StartMessage)
            && h.version == Some(now as real)
    ensures forall other :: other != jobId ==> HashOf(r.db, other) == HashOf(w.db, other)
    ensures r.rooms == w.rooms
    ensures |r.sent| == |w.sent| + 1 && r.sent[..|w.sent|] == w.sent
    ensures r.sent[|w.sent|] ==
            Delivery(Members(w.rooms, jobId), WsProgress,
                     ProgressMsg(JobProgress(jobId, StageName(Preprocess), 0.0, None, Some(StartMessage), now as real, now)))
  {
    var progress := JobProgress(jobId, StageName(Preprocess), 0.0, None, Some(StartMessage), now as real, now);
    var db := UpdateJobInRedis(w.db, jobId, ToUpdate(progress), now);
    ApiWorld(db, w.rooms, w.sent + [Delivery(Members(w.rooms, jobId), WsProgress, ProgressMsg(progress))])
  }

  /** The queue's `completed` event: announce completion with the stored files, if the job is visible. */
  function QueueCompleted(w: ApiWorld, jobId: string, now: int): (r: ApiWorld)
    ensures r.db == w.db && r.rooms == w.rooms
    ensures GetJobSnapshot(w.db, jobId, now).None? ==> r.sent == w.sent
    ensures GetJobSnapshot(w.db, jobId, now).Some? ==>
              r.sent == w.sent + [Delivery(Members(w.rooms, jobId), WsComplete,
                                           CompleteMsg(jobId, HashOf(w.db, jobId).files, now))]
  {
    match GetJobSnapshot(w.db, jobId, now)
    case None => w
    case Some(s) => w.(sent := w.sent + [Delivery(Members(w.rooms, jobId), WsComplete, CompleteMsg(jobId, s.files, now))])
  }

  /** The queue's `failed` event: broadcast a non-retryable `JOB_FAILED` error; the hash is not touched. */
  function QueueFailed(w: ApiWorld, jobId: string, failedReason: Option<string>, now: int): (r: ApiWorld)
    ensures r.db == w.db && r.rooms == w.rooms
    ensures |r.sent| == |w.sent| + 1 && r.sent[..|w.sent|] == w.sent
    ensures r.sent[|w.sent|].to == Members(w.rooms, jobId) && r.sent[|w.sent|].event == WsError
    ensures var m := r.sent[|w.sent|].msg;
            && m.ErrorMsg? && m.error.jobId == jobId && m.error.code == "JOB_FAILED" && !m.error.retryable
            && m.error.ts == now
            && m.error.message == (if Truthy(failedReason) then failedReason.value else FailedMessage)
  {
    var err := JobError(jobId, "JOB_FAILED", OrElse(failedReason, FailedMessage), false, now);
    w.(sent := w.sent + [Delivery(Members(w.rooms, jobId), WsError, ErrorMsg(err))])
  }

  /** Read back after the `active` listener: a visible job reads stage
      `preprocess`, progress 0, the start message, and the clock as both
      version and `ts`; visibility and every other job are unchanged. */
  lemma QueueActiveThenRead(w: ApiWorld, jobId: string, now: int, t: int)
    ensures var r := QueueActive(w, jobId, now);
            && (GetJobSnapshot(r.db, jobId, t).Some? <==> GetJobSnapshot(w.db, jobId, t).Some?)
            && (forall other :: other != jobId ==> GetJobSnapshot(r.db, other, t) == GetJobSnapshot(w.db, other, t))
            && (GetJobSnapshot(r.db, jobId, t).Some? && -ExponentBound < now as real < ExponentBound ==>
                  var s := GetJobSnapshot(r.db, jobId, t).value;
                  && s.stage == Some(StageName(Preprocess))
                  && s.progress == 0.0
                  && s.message == Some(StartMessage)
                  && s.version == now
                  && s.ts == now)
  {
    var r := QueueActive(w, jobId, now);
    ParseIntExact(now);
    forall other | other != jobId
      ensures GetJobSnapshot(r.db, other, t) == GetJobSnapshot(w.db, other, t)
    {
      assert HashOf(r.db, other) == HashOf(w.db, other);
    }
  }

  /** The `active` listener writes the clock as the version with no guard:
      a job whose stored version is ahead of the clock goes back to it. */
  lemma QueueActiveCanRegress(now: int)
    requires 0 < now < 2000
    ensures var h := EmptyHash.(status := Some("processing"), version := Some(2000.0));
            var w := ApiWorld(map[Key("j") := HashEntry(h, None)], map[], []);
            && GetJobSnapshot(w.db, "j", now).value.version == 2000
            && GetJobSnapshot(QueueActive(w, "j", now).db, "j", now).value.version == now
  {
    ParseIntExact(2000);
    ParseIntExact(now);
  }

  /** The `completed` and `failed` listeners only notify: every job reads
      back as before, and the `completed` announcement carries exactly the
      files a reader of the job would see. */
  lemma QueueNotifiersLeaveJobs(w: ApiWorld, jobId: string, reason: Option<string>, now: int, t: int)
    ensures forall id :: GetJobSnapshot(QueueCompleted(w, jobId, now).db, id, t) == GetJobSnapshot(w.db, id, t)
    ensures forall id :: GetJobSnapshot(QueueFailed(w, jobId, reason, now).db, id, t) == GetJobSnapshot(w.db, id, t)
    ensures var r := QueueCompleted(w, jobId, now);
            GetJobSnapshot(w.db, jobId, now).Some? ==>
              && r.sent[|w.sent|].msg.CompleteMsg?
              && r.sent[|w.sent|].msg.files == GetJobSnapshot(w.db, jobId, now).value.files
  {
  }
}

=== FILE: legacy_webhook.dfy ===
/** The webhook of the older `apps/api` stack (apps/api/src/routes/webhook.ts).

    The signature must equal the bare hex digest exactly (no prefix, no
    constant-time compare). The parsed body is checked against the route's
    schema, here a validator over JSON values. Each event kind is merged
    into the job hash with no version guard. Every failure after the
    signature check, including a schema failure, is answered 200 `{ok:true}`.

    The route uses `redis` without importing it, so the first `redis.hset`
    of the complete and error branches throws; that exception is caught by
    the same 200 fallback. `Handle` models the route as written and
    `HandleIntended` the route with the binding in scope. */
module LegacyWebhook {
  import opened Common
  import opened Json
  import opened SharedTypes
  import opened LegacyApi
  import Signature

  /** `'処理が完了しました'` */
  const CompleteMessage: string := "\U{51E6}\U{7406}\U{304C}\U{5B8C}\U{4E86}\U{3057}\U{307E}\U{3057}\U{305F}"

  // Schema validation. `None` is a validation failure; `Some(None)` an absent optional key.

  function OptString(m: map<string, Json>, k: string): (r: Option<Option<string>>)
    ensures k !in m ==> r == Some(None)
    ensures k in m ==> (r.Some? <==> m[k].JStr?)
  {
    if k !in m then Some(None) else if m[k].JStr? then Some(Some(m[k].s)) else None
  }

  function OptNumber(m: map<string, Json>, k: string): (r: Option<Option<real>>)
    ensures k !in m ==> r == Some(None)
    ensures k in m ==> (r.Some? <==> m[k].JNum?)
  {
    if k !in m then Some(None) else if m[k].JNum? then Some(Some(m[k].n)) else None
  }

  /** The `files` object: four optional string keys; any other key (`zip`
      included) is stripped. */
  function ValidateFiles(j: Json): (r: Option<StemFiles>)
    ensures r.Some? ==> j.JObj? && r.value.zip.None?
  {
    if !j.JObj? then None
    else
      var m := j.fields;
      match (OptString(m, "drums"), OptString(m, "bass"), OptString(m, "vocals"), OptString(m, "other"))
      case (Some(d), Some(b), Some(v), Some(o)) => Some(StemFiles(d, b, v, o, None))
      case _ => None
  }

  function OptFiles(m: map<string, Json>, k: string): (r: Option<Option<StemFiles>>)
    ensures k !in m ==> r == Some(None)
  {
    if k !in m then Some(None)
    else match ValidateFiles(m[k])
      case Some(f) => Some(Some(f))
      case None => None
  }

  function ValidateData(j: Json): (r: Option<WebhookData>)
    ensures r.Some? ==> j.JObj?
  {
    if !j.JObj? then None
    else
      var m := j.fields;
      match (OptString(m, "stage"), OptNumber(m, "progress"), OptString(m, "message"), OptFiles(m, "files"),
             OptString(m, "error"))
      case (Some(s), Some(p), Some(msg), Some(f), Some(e)) => Some(WebhookData(s, p, msg, f, e))
      case _ => None
  }

  function KindName(k: WebhookEventKind): string {
    match k
    case ProgressKind => "progress"
    case CompleteKind => "complete"
    case ErrorKind => "error"
  }

  function ValidateKind(j: Json): (r: Option<WebhookEventKind>)
    ensures r.Some? ==> j == JStr(KindName(r.value))
    ensures j.JStr? && j.s in {"progress", "complete", "error"} ==> r.Some?
  {
    if j == JStr("progress") then Some(ProgressKind)
    else if j == JStr("complete") then Some(CompleteKind)
    else if j == JStr("error") then Some(ErrorKind)
    else None
  }

  /** The four keys of the payload schema are present and each validates. */
  predicate SchemaKeysValid(m: map<string, Json>) {
    && "jobId" in m && m["jobId"].JStr?
    && "event" in m && ValidateKind(m["event"]).Some?
    && "data" in m && ValidateData(m["data"]).Some?
    && "timestamp" in m && m["timestamp"].JNum?
  }

  /** `schema.parse(payload)`: a string `jobId`, an `event` among the three
      kinds, a `data` object and a numeric `timestamp`; unknown keys are dropped. */
  function Validate(j: Json): (r: Option<WebhookPayload>)
    ensures r.Some? ==>
              && j.JObj?
              && "jobId" in j.fields && j.fields["jobId"] == JStr(r.value.jobId)
              && "event" in j.fields && j.fields["event"] == JStr(KindName(r.value.event))
              && "data" in j.fields && ValidateData(j.fields["data"]) == Some(r.value.data)
              && "timestamp" in j.fields && j.fields["timestamp"] == JNum(r.value.timestamp)
              && (r.value.data.files.Some? ==> r.value.data.files.value.zip.None?)
    ensures j.JObj? && SchemaKeysValid(j.fields) ==> r.Some?
    ensures r.Some? ==> j.JObj? && SchemaKeysValid(j.fields)
  {
    match j
    case JObj(m) =>
      if "jobId" in m && m["jobId"].JStr? && "event" in m && "data" in m
         && "timestamp" in m && m["timestamp"].JNum? then
        match (ValidateKind(m["event"]), ValidateData(m["data"]))
        case (Some(kind), Some(data)) => Some(WebhookPayload(m["jobId"].s, kind, data, m["timestamp"].n))
        case _ => None
      else None
    case _ => None
  }

  // The canonical JSON of a validated payload, the partner of `Validate`.

  function AddString(m: map<string, Json>, k: string, v: Option<string>): map<string, Json> {
    if v.Some? then m[k := JStr(v.value)] else m
  }

  function EncodeFiles(f: StemFiles): Json {
    JObj(AddString(AddString(AddString(AddString(map[], "drums", f.drums), "bass", f.bass),
                             "vocals", f.vocals), "other", f.other))
  }

  function EncodeData(d: WebhookData): Json {
    var m1 := AddString(map[], "stage", d.stage);
    var m2 := if d.progress.Some? then m1["progress" := JNum(d.progress.value)] else m1;
    var m3 := AddString(m2, "message", d.message);
    var m4 := if d.files.Some? then m3["files" := EncodeFiles(d.files.value)] else m3;
    JObj(AddString(m4, "error", d.error))
  }

  function Encode(p: WebhookPayload): Json {
    JObj(map["jobId" := JStr(p.jobId), "event" := JStr(KindName(p.event)),
             "data" := EncodeData(p.data), "timestamp" := JNum(p.timestamp)])
  }

  lemma FilesRoundTrip(f: StemFiles)
    requires f.zip.None?
    ensures ValidateFiles(EncodeFiles(f)) == Some(f)
  {
    var m := EncodeFiles(f).fields;
    assert OptString(m, "drums") == Some(f.drums);
    assert OptString(m, "bass") == Some(f.bass);
    assert OptString(m, "vocals") == Some(f.vocals);
    assert OptString(m, "other") == Some(f.other);
  }

  lemma DataRoundTrip(d: WebhookData)
    requires d.files.Some? ==> d.files.value.zip.None?
    ensures ValidateData(EncodeData(d)) == Some(d)
  {
    var m := EncodeData(d).fields;
    assert OptString(m, "stage") == Some(d.stage);
    assert OptNumber(m, "progress") == Some(d.progress);
    assert OptString(m, "message") == Some(d.message);
    assert OptString(m, "error") == Some(d.error);
    if d.files.Some? {
      FilesRoundTrip(d.files.value);
      assert m["files"] == EncodeFiles(d.files.value);
    } else {
      assert "files" !in m;
    }
    assert OptFiles(m, "files") == Some(d.files);
  }

  /** Every payload the schema can produce is accepted back from its canonical JSON. */
  lemma ValidateEncodeRoundTrip(p: WebhookPayload)
    requires p.data.files.Some? ==> p.data.files.value.zip.None?
    ensures Validate(Encode(p)) == Some(p)
  {
    DataRoundTrip(p.data);
  }

  /** Keys outside the schema are stripped: adding or replacing one changes
      nothing about the result. */
  lemma UnknownKeysIgnored(m: map<string, Json>, k: string, v: Json)
    requires k !in {"jobId", "event", "data", "timestamp"}
    ensures Validate(JObj(m[k := v])) == Validate(JObj(m))
  {
    var m' := m[k := v];
    if SchemaKeysValid(m) {
      assert m'["jobId"] == m["jobId"] && m'["event"] == m["event"];
      assert m'["data"] == m["data"] && m'["timestamp"] == m["timestamp"];
    }
  }

  /** A validated body and its canonical JSON validate to the same payload. */
  lemma ValidateNormalises(j: Json)
    requires Validate(j).Some?
    ensures Validate(Encode(Validate(j).value)) == Validate(j)
  {
    ValidateEncodeRoundTrip(Validate(j).value);
  }

  // The route.

  /** `verifyWebhookSignature`: exact string equality with the hex digest. */
  predicate VerifyWebhookSignature(hmac: (string, string) -> string, secret: string, body: string, signature: string) {
    signature == hmac(secret, body)
  }

  /** For a lower-case hex digest, every header this route accepts the main
      server accepts too; the converse fails for prefixed headers
      (`PrefixedSignatureRejected`). */
  lemma AcceptedByMainServer(hmac: (string, string) -> string, secret: string, body: string, signature: string)
    requires IsLowerHex(hmac(secret, body))
    requires VerifyWebhookSignature(hmac, secret, body, signature)
    ensures Signature.VerifyHmac(hmac, body, secret, signature)
  {
    Signature.VerifyHmacAcceptsExactly(hmac, body, secret, signature);
  }

  /** The `x-webhook-signature` header, the raw body and `JSON.parse(body)`
      (`None` when it throws). */
  datatype ApiWebhookRequest = ApiWebhookRequest(signature: Option<string>, body: string, parsed: Option<Json>)

  datatype Reply = InvalidSignature | AckOk

  /** `redis.hset` of whole fields: the job's hash becomes `h`, its TTL is kept. */
  function SetHash(db: RedisDb, jobId: string, h: JobHash): (r: RedisDb)
    ensures HashOf(r, jobId) == h
    ensures forall other :: other != jobId ==> HashOf(r, other) == HashOf(db, other)
  {
    var r := db[Key(jobId) := HashEntry(h, if Key(jobId) in db then db[Key(jobId)].ttlSec else None)];
    assert forall other :: other != jobId ==> HashOf(r, other) == HashOf(db, other) by {
      forall other | other != jobId
        ensures HashOf(r, other) == HashOf(db, other)
      {
        if Key(other) == Key(jobId) {
          PrefixInjective(KeyPrefix, other, jobId);
        }
      }
    }
    r
  }

  /** The progress record the progress branch writes and broadcasts. */
  function ProgressOf(p: WebhookPayload, now: int): (r: JobProgress)
    ensures r.jobId == p.jobId && r.version == p.timestamp && r.ts == now && r.message == p.data.message
    ensures r.stage != "" && (Truthy(p.data.stage) ==> r.stage == p.data.stage.value)
    ensures !Truthy(p.data.stage) ==> r.stage == "separate"
    ensures r.progress == (if p.data.progress.Some? then p.data.progress.value else 0.0)
    ensures r.etaSec.None?
  {
    JobProgress(p.jobId, OrElse(p.data.stage, "separate"),
                if p.data.progress.Some? && p.data.progress.value != 0.0 then p.data.progress.value else 0.0,
                None, p.data.message, p.timestamp, now)
  }

  /** The event switch after validation. `redisBound` says whether the
      `redis` client is in scope; when it is not, the branch stops with an
      exception at its first use, keeping what was already written. */
  function Dispatch(w: ApiWorld, p: WebhookPayload, now: int, redisBound: bool): (r: ApiWorld)
    ensures r.rooms == w.rooms
    ensures forall other :: other != p.jobId ==> HashOf(r.db, other) == HashOf(w.db, other)
    ensures HashOf(r.db, p.jobId).stage == Some(if p.event.ProgressKind? then ProgressOf(p, now).stage
                                               else if p.event.CompleteKind? then "complete" else "error")
    ensures |w.sent| <= |r.sent| <= |w.sent| + 1 && r.sent[..|w.sent|] == w.sent
    ensures |r.sent| == |w.sent| + 1 ==> r.sent[|w.sent|].to == Members(w.rooms, p.jobId)
    ensures redisBound ==> |r.sent| == |w.sent| + 1
    ensures !redisBound ==>
              (|r.sent| == |w.sent| + 1 <==> p.event.ProgressKind? || (p.event.CompleteKind? && p.data.files.None?))
    ensures HashOf(r.db, p.jobId).updatedAt == Some(now)
    ensures p.event.ProgressKind? ==>
              var h, h0 := HashOf(r.db, p.jobId), HashOf(w.db, p.jobId);
              && h.progress == Some(ProgressOf(p, now).progress)
              && h.message == (if Truthy(p.data.message) then p.data.message else h0.message)
              && h.version == Some(if p.timestamp != 0.0 then p.timestamp else now as real)
              && h.status == h0.status && h.files == h0.files && h.error == h0.error
              && r.sent == w.sent + [Delivery(Members(w.rooms, p.jobId), WsProgress, ProgressMsg(ProgressOf(p, now)))]
    ensures p.event.CompleteKind? ==>
              var h, h0 := HashOf(r.db, p.jobId), HashOf(w.db, p.jobId);
              && h.progress == Some(100.0) && h.message == Some(CompleteMessage) && h.version == Some(now as real)
              && h.error == h0.error
              && (redisBound && p.data.files.Some? ==> h.status == Some("completed") && h.files == p.data.files)
              && (!redisBound || p.data.files.None? ==> h.status == h0.status && h.files == h0.files)
              && (|r.sent| == |w.sent| + 1 ==>
                    r.sent[|w.sent|] == Delivery(Members(w.rooms, p.jobId), WsComplete, CompleteMsg(p.jobId, p.data.files, now)))
    ensures p.event.ErrorKind? ==>
              var h, h0 := HashOf(r.db, p.jobId), HashOf(w.db, p.jobId);
              && h.progress == h0.progress && h.message == Some(OrElse(p.data.error, "Unknown error"))
              && h.version == Some(now as real) && h.files == h0.files
              && (redisBound ==> h.status == Some("failed") && h.error == Some(ErrorBlob(p.data.error, p.timestamp)))
              && (!redisBound ==> h.status == h0.status && h.error == h0.error)
              && (|r.sent| == |w.sent| + 1 ==>
                    r.sent[|w.sent|] == Delivery(Members(w.rooms, p.jobId), WsError,
                                                 ErrorMsg(JobError(p.jobId, "PROCESSING_ERROR",
                                                                   OrElse(p.data.error, "Processing failed"), false, now))))
  {
    match p.event
    case ProgressKind =>
      var progress := ProgressOf(p, now);
      ApiWorld(UpdateJobInRedis(w.db, p.jobId, ToUpdate(progress), now), w.rooms,
               w.sent + [Delivery(Members(w.rooms, p.jobId), WsProgress, ProgressMsg(progress))])
    case CompleteKind =>
      var db := UpdateJobInRedis(w.db, p.jobId, ProgressUpdate(Some("complete"), Some(100.0), Some(CompleteMessage), None, None), now);
      var complete := Delivery(Members(w.rooms, p.jobId), WsComplete, CompleteMsg(p.jobId, p.data.files, now));
      if p.data.files.None? then ApiWorld(db, w.rooms, w.sent + [complete])
      else if !redisBound then w.(db := db)
      else
        var h := HashOf(db, p.jobId).(files := p.data.files, status := Some("completed"));
        ApiWorld(SetHash(db, p.jobId, h), w.rooms, w.sent + [complete])
    case ErrorKind =>
      var db := UpdateJobInRedis(w.db, p.jobId, ProgressUpdate(Some("error"), None, Some(OrElse(p.data.error, "Unknown error")), None, None), now);
      if !redisBound then w.(db := db)
      else
        var h := HashOf(db, p.jobId).(status := Some("failed"), error := Some(ErrorBlob(p.data.error, p.timestamp)));
        var err := JobError(p.jobId, "PROCESSING_ERROR", OrElse(p.data.error, "Processing failed"), false, now);
        ApiWorld(SetHash(db, p.jobId, h), w.rooms, w.sent + [Delivery(Members(w.rooms, p.jobId), WsError, ErrorMsg(err))])
  }

  function HandleWith(hmac: (string, string) -> string, secret: string, w: ApiWorld, req: ApiWebhookRequest,
                      now: int, redisBound: bool): (ApiWorld, Reply)
  {
    if !VerifyWebhookSignature(hmac, secret, req.body, req.signature.GetOr("")) then (w, InvalidSignature)
    else if req.parsed.None? || Validate(req.parsed.value).None? then (w, AckOk)
    else (Dispatch(w, Validate(req.parsed.value).value, now, redisBound), AckOk)
  }

  /** `POST /api/webhooks/modal` as written. 401 iff the header is not
      exactly the hex digest; otherwise always 200, whether the body parses,
      validates, or a branch throws. A refused or invalid call changes nothing. */
  function Handle(hmac: (string, string) -> string, secret: string, w: ApiWorld, req: ApiWebhookRequest, now: int)
    : (r: (ApiWorld, Reply))
    ensures r.1 == InvalidSignature <==> req.signature.GetOr("") != hmac(secret, req.body)
    ensures r.1 == InvalidSignature ==> r.0 == w
    ensures req.parsed.None? || Validate(req.parsed.value).None? ==> r.0 == w
    ensures r.0.rooms == w.rooms
  {
    HandleWith(hmac, secret, w, req, now, false)
  }

  /** The route with `redis` in scope. */
  function HandleIntended(hmac: (string, string) -> string, secret: string, w: ApiWorld, req: ApiWebhookRequest, now: int)
    : (r: (ApiWorld, Reply))
    ensures r.1 == InvalidSignature <==> req.signature.GetOr("") != hmac(secret, req.body)
    ensures r.1 == InvalidSignature ==> r.0 == w
    ensures r.0.rooms == w.rooms
  {
    HandleWith(hmac, secret, w, req, now, true)
  }

  /** Unlike the main server, a `sha256=`-prefixed digest is refused. */
  lemma PrefixedSignatureRejected(hmac: (string, string) -> string, secret: string, w: ApiWorld, body: string,
                                  parsed: Option<Json>, now: int)
    ensures Handle(hmac, secret, w, ApiWebhookRequest(Some("sha256=" + hmac(secret, body)), body, parsed), now).1
            == InvalidSignature
  {
    assert |"sha256=" + hmac(secret, body)| != |hmac(secret, body)|;
  }

  /** A validated progress event writes stage (default `separate`), progress
      (default 0) and `version = timestamp` into the hash and broadcasts to
      the room; nothing guards the version, so the stored version is
      replaced whatever it was. */
  lemma ProgressWritesWithoutGuard(hmac: (string, string) -> string, secret: string, w: ApiWorld,
                                   req: ApiWebhookRequest, now: int)
    requires req.signature == Some(hmac(secret, req.body))
    requires req.parsed.Some? && Validate(req.parsed.value).Some?
    requires Validate(req.parsed.value).value.event == ProgressKind
    requires Validate(req.parsed.value).value.timestamp != 0.0
    ensures var p := Validate(req.parsed.value).value;
            var r := Handle(hmac, secret, w, req, now);
            var h := HashOf(r.0.db, p.jobId);
            && r.1 == AckOk
            && h.stage == Some(if Truthy(p.data.stage) then p.data.stage.value else "separate")
            && h.progress == Some(if p.data.progress.Some? then p.data.progress.value else 0.0)
            && h.version == Some(p.timestamp)
            && |r.0.sent| == |w.sent| + 1
            && r.0.sent[|w.sent|].to == Members(w.rooms, p.jobId)
  {
    var p := Validate(req.parsed.value).value;
    var progress := ProgressOf(p, now);
    assert ToUpdate(progress).stage == Some(progress.stage) && progress.stage != "" by {
      if !Truthy(p.data.stage) { assert progress.stage == "separate"; }
    }
  }

  /** The stored version can go backwards: a job at version 1000 that
      receives a progress event stamped 5 ends at version 5. */
  lemma VersionCanRegress(hmac: (string, string) -> string, secret: string, body: string, now: int)
    ensures
      var h := EmptyHash.(status := Some("pending"), version := Some(1000.0));
      var w := ApiWorld(map[Key("j") := HashEntry(h, None)], map[], []);
      var j := JObj(map["jobId" := JStr("j"), "event" := JStr("progress"), "data" := JObj(map[]),
                        "timestamp" := JNum(5.0)]);
      var r := Handle(hmac, secret, w, ApiWebhookRequest(Some(hmac(secret, body)), body, Some(j)), now);
      && GetJobSnapshot(w.db, "j", now).value.version == 1000
      && GetJobSnapshot(r.0.db, "j", now).value.version == 5
  {
    var j := JObj(map["jobId" := JStr("j"), "event" := JStr("progress"), "data" := JObj(map[]),
                      "timestamp" := JNum(5.0)]);
    var m: map<string, Json> := map[];
    assert ValidateData(JObj(m)) == Some(WebhookData(None, None, None, None, None));
    assert Validate(j) == Some(WebhookPayload("j", ProgressKind, WebhookData(None, None, None, None, None), 5.0));
  }

  /** As written, a complete event carrying files never marks the job
      completed, never stores the files and never notifies the room: the
      throw comes right after the stage/progress merge. */
  lemma CompleteWithFilesAsWritten(hmac: (string, string) -> string, secret: string, w: ApiWorld,
                                   req: ApiWebhookRequest, now: int)
    requires req.signature == Some(hmac(secret, req.body))
    requires req.parsed.Some? && Validate(req.parsed.value).Some?
    requires Validate(req.parsed.value).value.event == CompleteKind
    requires Validate(req.parsed.value).value.data.files.Some?
    ensures var p := Validate(req.parsed.value).value;
            var r := Handle(hmac, secret, w, req, now);
            && r.1 == AckOk
            && HashOf(r.0.db, p.jobId).status == HashOf(w.db, p.jobId).status
            && HashOf(r.0.db, p.jobId).files == HashOf(w.db, p.jobId).files
            && HashOf(r.0.db, p.jobId).stage == Some("complete")
            && r.0.sent == w.sent
  {
  }

  /** With `redis` in scope, the same event makes the job visible as
      completed with its files and notifies the room. */
  lemma CompleteWithFilesIntended(hmac: (string, string) -> string, secret: string, w: ApiWorld,
                                  req: ApiWebhookRequest, now: int)
    requires req.signature == Some(hmac(secret, req.body))
    requires req.parsed.Some? && Validate(req.parsed.value).Some?
    requires Validate(req.parsed.value).value.event == CompleteKind
    requires Validate(req.parsed.value).value.data.files.Some?
    ensures var p := Validate(req.parsed.value).value;
            var r := HandleIntended(hmac, secret, w, req, now);
            var s := GetJobSnapshot(r.0.db, p.jobId, now);
            && r.1 == AckOk
            && s.Some? && s.value.status == "completed" && s.value.files == p.data.files
            && s.value.progress == 100.0
            && |r.0.sent| == |w.sent| + 1 && r.0.sent[|w.sent|].event == WsComplete
  {
  }

  /** As written, an error event never marks the job failed and never
      notifies the room. */
  lemma ErrorAsWritten(hmac: (string, string) -> string, secret: string, w: ApiWorld,
                       req: ApiWebhookRequest, now: int)
    requires req.signature == Some(hmac(secret, req.body))
    requires req.parsed.Some? && Validate(req.parsed.value).Some?
    requires Validate(req.parsed.value).value.event == ErrorKind
    ensures var p := Validate(req.parsed.value).value;
            var r := Handle(hmac, secret, w, req, now);
            && r.1 == AckOk
            && HashOf(r.0.db, p.jobId).status == HashOf(w.db, p.jobId).status
            && HashOf(r.0.db, p.jobId).stage == Some("error")
            && r.0.sent == w.sent
  {
  }

  /** With `redis` in scope, an error event makes the job visible as failed
      with the error stored, and the room receives a non-retryable error. */
  lemma ErrorIntended(hmac: (string, string) -> string, secret: string, w: ApiWorld,
                      req: ApiWebhookRequest, now: int)
    requires req.signature == Some(hmac(secret, req.body))
    requires req.parsed.Some? && Validate(req.parsed.value).Some?
    requires Validate(req.parsed.value).value.event == ErrorKind
    ensures var p := Validate(req.parsed.value).value;
            var r := HandleIntended(hmac, secret, w, req, now);
            var s := GetJobSnapshot(r.0.db, p.jobId, now);
            && r.1 == AckOk
            && s.Some? && s.value.status == "failed"
            && s.value.error == Some(ErrorBlob(p.data.error, p.timestamp))
            && |r.0.sent| == |w.sent| + 1 && r.0.sent[|w.sent|].event == WsError
            && r.0.sent[|w.sent|].msg.ErrorMsg? && !r.0.sent[|w.sent|].msg.error.retryable
  {
  }
}

=== FILE: server.dfy ===
/** The main server's job-state logic (apps/server/src/index.ts): the version
    guard, the per-kind transition, the signed webhook, job creation, the
    snapshot read, the dev-only advance and the socket connection handler.

    Each handler is one atomic step: it reads the store once and returns the
    HTTP response together with the ordered list of side effects it performs
    (store writes, socket emits, room joins). `Run` applies that list to the
    world, so the order of effects is part of the model. */
module Server {
  import opened Common
  import opened Events
  import Store
  import Signature

  /** Process environment and secrets. `jobTtlEnv` is `JOB_TTL_SEC` already
      converted to a number, `None` when unset or empty. */
  datatype Config = Config(
    secret: string,
    hmac: Signature.Digest,
    production: bool,
    jobTtlEnv: Option<int>)

  /** `Number(process.env.JOB_TTL_SEC || 7 * 24 * 3600)`: the configured TTL,
      seven days when none is configured. */
  function TtlSec(cfg: Config): (ttl: int)
    ensures cfg.jobTtlEnv.None? ==> ttl == 604800
    ensures cfg.jobTtlEnv.Some? ==> ttl == cfg.jobTtlEnv.value
  {
    cfg.jobTtlEnv.GetOr(Store.DefaultTtlSec)
  }

  type ConnId = string

  datatype Effect =
    | StoreSet(id: string, snap: JobSnapshot, ttlSec: int)
    | EmitToRoom(room: string, name: EventName, msg: Message)
    | EmitToSocket(conn: ConnId, name: EventName, msg: Message)
    | JoinRoom(conn: ConnId, room: string)
    | Disconnect(conn: ConnId)
    | Enqueue(jobId: string, fileKey: Option<string>)

  /** One emitted message and the connections it reached. */
  datatype Delivery = Delivery(to: set<ConnId>, name: EventName, msg: Message)

  datatype World = World(
    store: Store.JobStore,
    rooms: map<string, set<ConnId>>,
    sent: seq<Delivery>,
    closed: set<ConnId>,
    queued: seq<string>)

  function Members(rooms: map<string, set<ConnId>>, room: string): set<ConnId> {
    if room in rooms then rooms[room] else {}
  }

  function Apply(w: World, e: Effect): World {
    match e
    case StoreSet(id, snap, ttl) => w.(store := Store.Set(w.store, id, snap, Some(ttl)))
    case EmitToRoom(room, name, msg) => w.(sent := w.sent + [Delivery(Members(w.rooms, room), name, msg)])
    case EmitToSocket(conn, name, msg) => w.(sent := w.sent + [Delivery({conn}, name, msg)])
    case JoinRoom(conn, room) => w.(rooms := w.rooms[room := Members(w.rooms, room) + {conn}])
    case Disconnect(conn) => w.(closed := w.closed + {conn})
    case Enqueue(id, _) => w.(queued := w.queued + [id])
  }

  /** Apply effects in order; every message sent along the way is appended
      after the messages already sent. */
  function Run(w: World, effects: seq<Effect>): (r: World)
    ensures |r.sent| >= |w.sent| && r.sent[..|w.sent|] == w.sent
    decreases |effects|
  {
    if effects == [] then w
    else
      var w1 := Apply(w, effects[0]);
      assert w1.sent[..|w.sent|] == w.sent;
      Run(w1, effects[1..])
  }

  datatype Body =
    | ErrorBody(error: string)
    | JobIdBody(jobId: string)
    | SnapshotBody(snapshot: JobSnapshot)
    | OkBody
    | IgnoredStaleBody
    | OkVersionBody(version: int)
    | InternalServerError

  datatype Response = Response(status: int, body: Body)

  datatype Outcome = Outcome(response: Response, effects: seq<Effect>)

  /** `Math.min(100, Math.max(0, p))` */
  function Clamp(p: real): (r: real)
    ensures ProgressInRange(r)
    ensures ProgressInRange(p) ==> r == p
    ensures p < 0.0 ==> r == 0.0
    ensures p > 100.0 ==> r == 100.0
  {
    if p < 0.0 then 0.0 else if p > 100.0 then 100.0 else p
  }

  /** The version guard: an event is stale iff a snapshot is stored and the
      event's version is not newer than the stored one. */
  predicate IsStale(current: Option<JobSnapshot>, version: int)
    ensures IsStale(current, version) ==> current.Some? && version <= current.value.version
    ensures !IsStale(current, version) ==> current.None? || current.value.version < version
  {
    current.Some? && version <= current.value.version
  }

  /** Once an event is stale it stays stale: a stored snapshot that is
      replaced only by ones at least as new keeps refusing it. */
  lemma StaleStaysStale(current: Option<JobSnapshot>, later: Option<JobSnapshot>, version: int)
    requires IsStale(current, version)
    requires later.Some? && current.value.version <= later.value.version
    ensures IsStale(later, version)
  {
  }

  /** The snapshot an accepted event produces; `None` for a body of unknown
      type, which the handler acknowledges without writing. Nothing is carried
      over from the stored snapshot: each kind rebuilds the record. */
  function NextSnapshot(evt: WebhookEvent, now: string): (r: Option<JobSnapshot>)
    ensures r.Some? <==> !evt.Unknown?
    ensures r.Some? ==> && r.value.jobId == evt.JobId()
                        && r.value.version == evt.Version()
                        && r.value.updatedAt == now
                        && FieldsExclusive(r.value)
    ensures evt.ProgressEvent? ==>
              && r.value.status == Processing
              && r.value.stage == Some(evt.p.stage)
              && r.value.progress == Clamp(evt.p.progress)
              && r.value.etaSec == evt.p.etaSec
              && r.value.files.None? && r.value.error.None?
    ensures evt.CompleteEvent? ==>
              && r.value.status == Completed
              && r.value.stage == Some(Upload)
              && r.value.progress == 100.0
              && r.value.files == Some(evt.c.files)
              && r.value.etaSec.None? && r.value.error.None?
    ensures evt.ErrorEvent? ==>
              && r.value.status == Failed
              && r.value.progress == 100.0
              && r.value.error == Some(JobError(evt.e.code, evt.e.message, evt.e.retryable))
              && r.value.stage.None? && r.value.etaSec.None? && r.value.files.None?
  {
    match evt
    case ProgressEvent(p) =>
      Some(JobSnapshot(p.jobId, Processing, Some(p.stage), Clamp(p.progress), p.etaSec, None, p.version, now, None))
    case CompleteEvent(c) =>
      Some(JobSnapshot(c.jobId, Completed, Some(Upload), 100.0, None, Some(c.files), c.version, now, None))
    case ErrorEvent(e) =>
      Some(JobSnapshot(e.jobId, Failed, None, 100.0, None, None, e.version, now,
                       Some(JobError(e.code, e.message, e.retryable))))
    case Unknown(_, _) => None
  }

  /** The socket event and payload broadcast for an accepted event: the event itself. */
  function Broadcast(evt: WebhookEvent): (r: Option<(EventName, Message)>)
    ensures r.Some? <==> !evt.Unknown?
    ensures evt.ProgressEvent? ==> r.value.0 == Progress && r.value.1 == ProgressMsg(evt.p)
    ensures evt.CompleteEvent? ==> r.value.0 == Complete && r.value.1 == CompleteMsg(evt.c)
    ensures evt.ErrorEvent? ==> r.value.0 == Error && r.value.1 == ErrorMsg(evt.e)
  {
    match evt
    case ProgressEvent(p) => Some((Progress, ProgressMsg(p)))
    case CompleteEvent(c) => Some((Complete, CompleteMsg(c)))
    case ErrorEvent(e) => Some((Error, ErrorMsg(e)))
    case Unknown(_, _) => None
  }

  /** A webhook call: the `x-signature` header, the raw body, the result of
      `JSON.parse(raw)` (`None` when it throws) and the server clock. */
  datatype WebhookRequest = WebhookRequest(
    signature: Option<string>, raw: string, parsed: Option<WebhookEvent>, now: string)

  predicate Authentic(cfg: Config, req: WebhookRequest) {
    Signature.VerifyHmac(cfg.hmac, req.raw, cfg.secret, req.signature.GetOr(""))
  }

  /** `POST /api/webhooks/modal`. A failed signature is a 401 before any store
      access. A body that does not parse throws outside any `try` and surfaces
      as a 500 from the HTTP adapter. A stale event is acknowledged as ignored.
      An accepted event is written to the store and only then broadcast to the
      job's room. */
  function Webhook(cfg: Config, store: Store.JobStore, req: WebhookRequest): (o: Outcome)
    ensures o.response.status == 401 <==> !Authentic(cfg, req)
    ensures !Authentic(cfg, req) ==> o.effects == []
    ensures Authentic(cfg, req) && req.parsed.None? ==> o == Outcome(Response(500, InternalServerError), [])
    ensures Authentic(cfg, req) && req.parsed.Some? ==>
              var evt := req.parsed.value;
              var current := Store.Get(store, evt.JobId());
              && (IsStale(current, evt.Version()) ==> o == Outcome(Response(200, IgnoredStaleBody), []))
              && (!IsStale(current, evt.Version()) ==> o.response == Response(200, OkBody))
              && (!IsStale(current, evt.Version()) && evt.Unknown? ==> o.effects == [])
              && (!IsStale(current, evt.Version()) && !evt.Unknown? ==>
                    o.effects == [StoreSet(evt.JobId(), NextSnapshot(evt, req.now).value, TtlSec(cfg)),
                                  EmitToRoom(evt.JobId(), Broadcast(evt).value.0, Broadcast(evt).value.1)])
  {
    if !Authentic(cfg, req) then Outcome(Response(401, ErrorBody("Unauthorized")), [])
    else match req.parsed
      case None => Outcome(Response(500, InternalServerError), [])
      case Some(evt) =>
        if IsStale(Store.Get(store, evt.JobId()), evt.Version()) then
          Outcome(Response(200, IgnoredStaleBody), [])
        else match (NextSnapshot(evt, req.now), Broadcast(evt))
          case (Some(next), Some((name, msg))) =>
            Outcome(Response(200, OkBody),
                    [StoreSet(evt.JobId(), next, TtlSec(cfg)), EmitToRoom(evt.JobId(), name, msg)])
          case _ => Outcome(Response(200, OkBody), [])
  }

  /** The snapshot a new job is seeded with. */
  function Seed(jobId: string, now: string): (s: JobSnapshot)
    ensures s.jobId == jobId && s.status == Queued && s.progress == 0.0 && s.version == 1 && s.updatedAt == now
    ensures s.stage.None? && s.etaSec.None? && FieldsExclusive(s)
  {
    JobSnapshot(jobId, Queued, None, 0.0, None, None, 1, now, None)
  }

  /** `POST /api/upload/complete` with `jobId` the fresh `randomUUID()`: seed
      the store, announce `job:accepted` to the (so far empty) room, hand the
      job to the submission queue and answer 202 with the id. */
  function UploadComplete(cfg: Config, jobId: string, fileKey: Option<string>, now: string): (o: Outcome)
    ensures o.response == Response(202, JobIdBody(jobId))
    ensures |o.effects| == 3
    ensures o.effects[0].StoreSet? && o.effects[0].id == jobId && o.effects[0].ttlSec == TtlSec(cfg)
    ensures var s := o.effects[0].snap;
            s.status == Queued && s.progress == 0.0 && s.version == 1 && s.jobId == jobId && FieldsExclusive(s)
    ensures o.effects[1] == EmitToRoom(jobId, Accepted, AcceptedMsg(AcceptedPayload(jobId, now)))
    ensures o.effects[2] == Enqueue(jobId, fileKey)
  {
    Outcome(Response(202, JobIdBody(jobId)),
            [StoreSet(jobId, Seed(jobId, now), TtlSec(cfg)),
             EmitToRoom(jobId, Accepted, AcceptedMsg(AcceptedPayload(jobId, now))),
             Enqueue(jobId, fileKey)])
  }

  /** `GET /api/job/:id`: 404 iff nothing is stored under the id. */
  function GetJob(store: Store.JobStore, id: string): (r: Response)
    ensures r.status == 404 <==> Store.Get(store, id).None?
    ensures r.status != 404 ==> r == Response(200, SnapshotBody(Store.Get(store, id).value))
  {
    match Store.Get(store, id)
    case None => Response(404, ErrorBody("Not found"))
    case Some(s) => Response(200, SnapshotBody(s))
  }

  /** The JSON body of `POST /api/dev/advance`. A body that does not parse
      reads as all fields absent; `progress` is `None` unless it is a number. */
  datatype AdvanceBody = AdvanceBody(jobId: Option<string>, stage: Option<JobStage>, progress: Option<real>)

  /** `stage || cur.stage || 'preprocess'` */
  function AdvanceStage(given: Option<JobStage>, cur: JobSnapshot): JobStage {
    if given.Some? then given.value
    else if cur.stage.Some? then cur.stage.value
    else Preprocess
  }

  /** The snapshot the dev advance stores: `cur` with status, stage, progress,
      version and timestamp replaced. */
  function Advanced(cur: JobSnapshot, stage: Option<JobStage>, progress: real, now: string): (r: JobSnapshot)
    ensures r.version == cur.version + 1
    ensures r.progress == Clamp(progress) && ProgressInRange(r.progress)
    ensures r.status == Completed <==> progress >= 100.0
    ensures r.status != Completed ==> r.status == Processing
    ensures stage.Some? ==> r.stage == stage
    ensures stage.None? ==> r.stage == Some(if cur.stage.Some? then cur.stage.value else Preprocess)
    ensures r.jobId == cur.jobId && r.etaSec == cur.etaSec && r.files == cur.files && r.error == cur.error
    ensures r.updatedAt == now
  {
    cur.(status := if progress >= 100.0 then Completed else Processing,
         stage := Some(AdvanceStage(stage, cur)),
         progress := Clamp(progress),
         version := cur.version + 1,
         updatedAt := now)
  }

  /** `POST /api/dev/advance`: bump the stored version by one without a webhook. */
  function DevAdvance(cfg: Config, store: Store.JobStore, body: AdvanceBody, now: string): (o: Outcome)
    ensures cfg.production ==> o == Outcome(Response(403, ErrorBody("forbidden")), [])
    ensures !cfg.production && (!Truthy(body.jobId) || body.progress.None?) ==>
              o == Outcome(Response(400, ErrorBody("bad_request")), [])
    ensures !cfg.production && Truthy(body.jobId) && body.progress.Some? ==>
              var cur := Store.Get(store, body.jobId.value);
              && (cur.None? ==> o == Outcome(Response(404, ErrorBody("not_found")), []))
              && (cur.Some? ==>
                    && o.response == Response(200, OkVersionBody(cur.value.version + 1))
                    && |o.effects| == 2
                    && o.effects[0] == StoreSet(body.jobId.value,
                                                Advanced(cur.value, body.stage, body.progress.value, now),
                                                TtlSec(cfg))
                    && o.effects[1] ==
                       if body.progress.value >= 100.0 then
                         EmitToRoom(body.jobId.value, Complete,
                                    CompleteMsg(CompletePayload(body.jobId.value, NoFiles, cur.value.version + 1, now)))
                       else
                         EmitToRoom(body.jobId.value, Progress,
                                    ProgressMsg(ProgressPayload(body.jobId.value, AdvanceStage(body.stage, cur.value),
                                                                Clamp(body.progress.value), None,
                                                                cur.value.version + 1, now))))
  {
    if cfg.production then Outcome(Response(403, ErrorBody("forbidden")), [])
    else if !Truthy(body.jobId) || body.progress.None? then Outcome(Response(400, ErrorBody("bad_request")), [])
    else
      var jobId := body.jobId.value;
      match Store.Get(store, jobId)
      case None => Outcome(Response(404, ErrorBody("not_found")), [])
      case Some(cur) =>
        var updated := Advanced(cur, body.stage, body.progress.value, now);
        var emit :=
          if updated.status == Completed then
            EmitToRoom(jobId, Complete, CompleteMsg(CompletePayload(jobId, NoFiles, updated.version, now)))
          else
            EmitToRoom(jobId, Progress, ProgressMsg(ProgressPayload(jobId, updated.stage.value, updated.progress,
                                                                    None, updated.version, now)));
        Outcome(Response(200, OkVersionBody(updated.version)), [StoreSet(jobId, updated, TtlSec(cfg)), emit])
  }

  /** The socket `connection` handler: without a `jobId` query the socket is
      disconnected; otherwise it joins the job's room and is sent the stored
      snapshot, if there is one, on its own. */
  function Connect(store: Store.JobStore, conn: ConnId, query: Option<string>): (effects: seq<Effect>)
    ensures !Truthy(query) ==> effects == [Disconnect(conn)]
    ensures Truthy(query) ==>
              && |effects| >= 1 && effects[0] == JoinRoom(conn, query.value)
              && (Store.Get(store, query.value).None? ==> |effects| == 1)
              && (Store.Get(store, query.value).Some? ==>
                    effects == [JoinRoom(conn, query.value),
                                EmitToSocket(conn, Snapshot, SnapshotMsg(Store.Get(store, query.value).value))])
  {
    var jobId := OrElse(query, "");
    if jobId == "" then [Disconnect(conn)]
    else
      match Store.Get(store, jobId)
      case None => [JoinRoom(conn, jobId)]
      case Some(s) => [JoinRoom(conn, jobId), EmitToSocket(conn, Snapshot, SnapshotMsg(s))]
  }
}

=== FILE: server_props.dfy ===
/** Properties of the main server's webhook path over whole worlds and over
    sequences of deliveries: the stored version never goes backwards,
    redelivery is a no-op, out-of-order delivery converges on the newest
    event, persistence precedes broadcast, and the field shape is kept. */
module ServerProps {
  import opened Common
  import opened Events
  import Store
  import Signature
  import opened Server

  /** One webhook call applied to the world. */
  function Step(cfg: Config, w: World, req: WebhookRequest): World {
    Run(w, Webhook(cfg, w.store, req).effects)
  }

  /** Webhook calls applied one after another. */
  function Deliver(cfg: Config, w: World, reqs: seq<WebhookRequest>): World
    decreases |reqs|
  {
    if reqs == [] then w else Step(cfg, Deliver(cfg, w, reqs[..|reqs| - 1]), reqs[|reqs| - 1])
  }

  /** An authenticated call carrying a progress, complete or error event. */
  predicate KnownEvent(cfg: Config, req: WebhookRequest) {
    Authentic(cfg, req) && req.parsed.Some? && !req.parsed.value.Unknown?
  }

  predicate Accepted(cfg: Config, store: Store.JobStore, req: WebhookRequest) {
    KnownEvent(cfg, req) && !IsStale(Store.Get(store, req.parsed.value.JobId()), req.parsed.value.Version())
  }

  lemma RunTwo(w: World, a: Effect, b: Effect)
    ensures Run(w, [a, b]) == Apply(Apply(w, a), b)
  {
    var w1 := Apply(w, a);
    assert [a, b][1..] == [b];
    assert Run(w, [a, b]) == Run(w1, [b]);
    assert [b][1..] == [];
    assert Run(w1, [b]) == Run(Apply(w1, b), []);
  }

  /** A call that is refused, unparsable, stale or of unknown type changes nothing at all. */
  lemma RejectedChangesNothing(cfg: Config, w: World, req: WebhookRequest)
    requires !Accepted(cfg, w.store, req)
    ensures Step(cfg, w, req) == w
  {
  }

  /** An accepted event replaces the job's snapshot with the one it
      produces, which is strictly newer than anything stored before; every
      other job and every room is untouched, and exactly one message goes to
      the members of the job's room. */
  lemma AcceptedEffect(cfg: Config, w: World, req: WebhookRequest)
    requires Accepted(cfg, w.store, req)
    ensures var evt := req.parsed.value;
            var w' := Step(cfg, w, req);
            && Store.Get(w'.store, evt.JobId()) == NextSnapshot(evt, req.now)
            && Store.Get(w'.store, evt.JobId()).value.version == evt.Version()
            && (Store.Get(w.store, evt.JobId()).Some? ==>
                  Store.Get(w.store, evt.JobId()).value.version < evt.Version())
            && (forall other :: other != evt.JobId() ==> Store.Get(w'.store, other) == Store.Get(w.store, other))
            && w'.rooms == w.rooms
            && w'.sent == w.sent + [Delivery(Members(w.rooms, evt.JobId()), Broadcast(evt).value.0, Broadcast(evt).value.1)]
  {
    var evt := req.parsed.value;
    var o := Webhook(cfg, w.store, req);
    RunTwo(w, o.effects[0], o.effects[1]);
  }

  /** Monotonic version: whatever the call, no stored version decreases and
      no stored job disappears. */
  lemma NeverRegresses(cfg: Config, w: World, req: WebhookRequest, id: string)
    requires Store.Get(w.store, id).Some?
    ensures Store.Get(Step(cfg, w, req).store, id).Some?
    ensures Store.Get(w.store, id).value.version <= Store.Get(Step(cfg, w, req).store, id).value.version
  {
    if Accepted(cfg, w.store, req) {
      AcceptedEffect(cfg, w, req);
    } else {
      RejectedChangesNothing(cfg, w, req);
    }
  }

  /** Idempotent redelivery: once an event has been applied, a second copy of
      it (any signature the secret accepts, any arrival time) is acknowledged
      as stale and changes nothing. */
  lemma RedeliveryIsNoOp(cfg: Config, w: World, req: WebhookRequest, again: WebhookRequest)
    requires KnownEvent(cfg, req)
    requires Authentic(cfg, again) && again.parsed == req.parsed
    ensures var w1 := Step(cfg, w, req);
            && Webhook(cfg, w1.store, again) == Outcome(Response(200, IgnoredStaleBody), [])
            && Step(cfg, w1, again) == w1
  {
    var evt := req.parsed.value;
    var w1 := Step(cfg, w, req);
    if Accepted(cfg, w.store, req) {
      AcceptedEffect(cfg, w, req);
    } else {
      RejectedChangesNothing(cfg, w, req);
    }
    assert IsStale(Store.Get(w1.store, evt.JobId()), evt.Version());
  }

  /** Persistence happens before broadcast: at the moment any room emit of a
      webhook call takes effect, the store already holds the snapshot whose
      version the emitted event carries. */
  lemma PersistBeforeBroadcast(cfg: Config, w: World, req: WebhookRequest, k: nat)
    requires k < |Webhook(cfg, w.store, req).effects|
    requires Webhook(cfg, w.store, req).effects[k].EmitToRoom?
    ensures var o := Webhook(cfg, w.store, req);
            var before := Run(w, o.effects[..k]);
            && Store.Get(before.store, o.effects[k].room).Some?
            && Store.Get(before.store, o.effects[k].room).value.version == req.parsed.value.Version()
  {
    var o := Webhook(cfg, w.store, req);
    assert k == 1;
    assert o.effects[..1] == [o.effects[0]];
    assert Run(w, o.effects[..1]) == Apply(w, o.effects[0]);
  }

  /** The version a call carries; 0 for a body that did not parse. */
  function VersionOf(req: WebhookRequest): int {
    if req.parsed.Some? then req.parsed.value.Version() else 0
  }

  /** How one delivery of a known event moves the job's stored snapshot:
      it ends present, at least as new as before and as the event, and is
      either the old snapshot or the one the event produces. */
  predicate StepRel(before: Option<JobSnapshot>, req: WebhookRequest, after: Option<JobSnapshot>) {
    && after.Some?
    && VersionOf(req) <= after.value.version
    && (before.Some? ==> before.value.version <= after.value.version)
    && (after == before || (req.parsed.Some? && after == NextSnapshot(req.parsed.value, req.now)))
  }

  lemma StepKeepsNewest(cfg: Config, w: World, req: WebhookRequest, job: string)
    requires KnownEvent(cfg, req) && req.parsed.value.JobId() == job
    ensures StepRel(Store.Get(w.store, job), req, Store.Get(Step(cfg, w, req).store, job))
  {
    if Accepted(cfg, w.store, req) {
      AcceptedEffect(cfg, w, req);
    } else {
      RejectedChangesNothing(cfg, w, req);
    }
  }

  /** Chaining `StepRel` along a trace of stored snapshots: the last one is
      at least as new as the first and as every event, and is either the
      first or what one of the events produced. */
  lemma {:induction false} ChainNewest(reqs: seq<WebhookRequest>, stored: seq<Option<JobSnapshot>>)
    requires |stored| == |reqs| + 1
    requires stored[0].Some? || |reqs| > 0
    requires forall k :: 0 <= k < |reqs| ==> StepRel(stored[k], reqs[k], stored[k + 1])
    ensures var final := stored[|reqs|];
            && final.Some?
            && (stored[0].Some? ==> stored[0].value.version <= final.value.version)
            && (forall i :: 0 <= i < |reqs| ==> VersionOf(reqs[i]) <= final.value.version)
            && (final == stored[0] ||
                exists i :: 0 <= i < |reqs| && reqs[i].parsed.Some? && final == NextSnapshot(reqs[i].parsed.value, reqs[i].now))
    decreases |reqs|
  {
    if reqs == [] {
      return;
    }
    var n := |reqs| - 1;
    assert StepRel(stored[n], reqs[n], stored[n + 1]);
    if n == 0 {
      return;
    }
    var prefix, init := reqs[..n], stored[..n + 1];
    assert forall k :: 0 <= k < |prefix| ==> prefix[k] == reqs[k];
    assert forall k :: 0 <= k <= n ==> init[k] == stored[k];
    ChainNewest(prefix, init);
    var mid := stored[n];
    assert init[n] == mid;
    forall i | 0 <= i < |reqs|
      ensures VersionOf(reqs[i]) <= stored[n + 1].value.version
    {
      if i < n {
        assert VersionOf(prefix[i]) <= mid.value.version;
      }
    }
    if stored[n + 1] == mid && mid != stored[0] {
      var i :| 0 <= i < |prefix| && prefix[i].parsed.Some? && mid == NextSnapshot(prefix[i].parsed.value, prefix[i].now);
      assert prefix[i] == reqs[i];
    }
  }

  /** Convergence under any delivery order: after a sequence of known events
      for one job, the stored version is the largest of the versions seen
      (including the one stored at the start), and when an event supplied it,
      the stored snapshot is exactly what that event produces. */
  lemma ConvergesOnNewest(cfg: Config, w: World, reqs: seq<WebhookRequest>, job: string)
    requires forall i :: 0 <= i < |reqs| ==> KnownEvent(cfg, reqs[i]) && reqs[i].parsed.value.JobId() == job
    requires Store.Get(w.store, job).Some? || |reqs| > 0
    ensures var final := Store.Get(Deliver(cfg, w, reqs).store, job);
            && final.Some?
            && (Store.Get(w.store, job).Some? ==> Store.Get(w.store, job).value.version <= final.value.version)
            && (forall i :: 0 <= i < |reqs| ==> VersionOf(reqs[i]) <= final.value.version)
            && (final == Store.Get(w.store, job) ||
                exists i :: 0 <= i < |reqs| && reqs[i].parsed.Some? && final == NextSnapshot(reqs[i].parsed.value, reqs[i].now))
  {
    var stored := seq(|reqs| + 1, k requires 0 <= k <= |reqs| => Store.Get(Deliver(cfg, w, reqs[..k]).store, job));
    forall k | 0 <= k < |reqs|
      ensures StepRel(stored[k], reqs[k], stored[k + 1])
    {
      assert reqs[..k + 1][..k] == reqs[..k];
      assert Deliver(cfg, w, reqs[..k + 1]) == Step(cfg, Deliver(cfg, w, reqs[..k]), reqs[k]);
      StepKeepsNewest(cfg, Deliver(cfg, w, reqs[..k]), reqs[k], job);
    }
    assert reqs[..0] == [] && reqs[..|reqs|] == reqs;
    ChainNewest(reqs, stored);
  }

  /** A subscriber that connects after any sequence of deliveries is sent the
      newest stored snapshot, never an older one. */
  lemma LateJoinerSeesNewest(cfg: Config, w: World, reqs: seq<WebhookRequest>, job: string, conn: ConnId)
    requires job != ""
    requires forall i :: 0 <= i < |reqs| ==> KnownEvent(cfg, reqs[i]) && reqs[i].parsed.value.JobId() == job
    requires |reqs| > 0
    ensures var effects := Connect(Deliver(cfg, w, reqs).store, conn, Some(job));
            && |effects| == 2
            && effects[1].EmitToSocket? && effects[1].msg.SnapshotMsg?
            && (forall i :: 0 <= i < |reqs| ==> VersionOf(reqs[i]) <= effects[1].msg.snapshot.version)
  {
    ConvergesOnNewest(cfg, w, reqs, job);
  }

  /** Every stored snapshot has the shape the webhook path produces. */
  ghost predicate StoreShaped(store: Store.JobStore) {
    forall id :: Store.Get(store, id).Some? ==> FieldsExclusive(Store.Get(store, id).value)
  }

  /** Field exclusivity is preserved by every webhook call. */
  lemma WebhookKeepsShape(cfg: Config, w: World, req: WebhookRequest)
    requires StoreShaped(w.store)
    ensures StoreShaped(Step(cfg, w, req).store)
  {
    if Accepted(cfg, w.store, req) {
      AcceptedEffect(cfg, w, req);
      var w' := Step(cfg, w, req);
      forall id | Store.Get(w'.store, id).Some?
        ensures FieldsExclusive(Store.Get(w'.store, id).value)
      {
        if id != req.parsed.value.JobId() {
          assert Store.Get(w'.store, id) == Store.Get(w.store, id);
        }
      }
    } else {
      RejectedChangesNothing(cfg, w, req);
    }
  }

  /** Creating a job seeds the queued snapshot, which `GET /api/job/:id` then serves. */
  lemma CreateThenGet(cfg: Config, w: World, jobId: string, fileKey: Option<string>, now: string)
    ensures var w' := Run(w, UploadComplete(cfg, jobId, fileKey, now).effects);
            && GetJob(w'.store, jobId) == Response(200, SnapshotBody(Seed(jobId, now)))
            && Seed(jobId, now).status == Queued && Seed(jobId, now).version == 1
            && (StoreShaped(w.store) ==> StoreShaped(w'.store))
            && w'.queued == w.queued + [jobId]
  {
    var o := UploadComplete(cfg, jobId, fileKey, now);
    RunTwo(Apply(w, o.effects[0]), o.effects[1], o.effects[2]);
    assert o.effects == [o.effects[0]] + [o.effects[1], o.effects[2]];
    assert o.effects[1..] == [o.effects[1], o.effects[2]];
    var w3 := Run(w, o.effects);
    if StoreShaped(w.store) {
      forall id | Store.Get(w3.store, id).Some?
        ensures FieldsExclusive(Store.Get(w3.store, id).value)
      {
        if id != jobId {
          assert Store.Get(w3.store, id) == Store.Get(w.store, id);
        }
      }
    }
  }

  /** The dev advance applied to the world: a refused call changes nothing;
      an accepted one bumps the stored job's version by one, makes
      `GET /api/job/:id` serve the advanced snapshot, leaves every other job
      and every room alone, and sends one message to the job's room. */
  lemma DevAdvanceEffect(cfg: Config, w: World, body: AdvanceBody, now: string)
    ensures var o := DevAdvance(cfg, w.store, body, now);
            var w' := Run(w, o.effects);
            && (o.response.status != 200 ==> w' == w)
            && (o.response.status == 200 ==>
                  && Truthy(body.jobId) && body.progress.Some? && Store.Get(w.store, body.jobId.value).Some?
                  && var id := body.jobId.value;
                     var cur := Store.Get(w.store, id).value;
                     && GetJob(w'.store, id) == Response(200, SnapshotBody(Advanced(cur, body.stage, body.progress.value, now)))
                     && Store.Get(w'.store, id).value.version == cur.version + 1
                     && (forall other :: other != id ==> Store.Get(w'.store, other) == Store.Get(w.store, other))
                     && w'.rooms == w.rooms
                     && |w'.sent| == |w.sent| + 1
                     && w'.sent[|w.sent|].to == Members(w.rooms, id)
                     && (body.progress.value >= 100.0 ==>
                           w'.sent[|w.sent|] ==
                           Delivery(Members(w.rooms, id), Complete,
                                    CompleteMsg(CompletePayload(id, NoFiles, cur.version + 1, now))))
                     && (body.progress.value < 100.0 ==>
                           w'.sent[|w.sent|] ==
                           Delivery(Members(w.rooms, id), Progress,
                                    ProgressMsg(ProgressPayload(id, AdvanceStage(body.stage, cur), Clamp(body.progress.value),
                                                                None, cur.version + 1, now)))))
  {
    var o := DevAdvance(cfg, w.store, body, now);
    if o.response.status == 200 {
      RunTwo(w, o.effects[0], o.effects[1]);
    }
  }

  /** The dev advance is outside that shape: advancing to 100 marks a job
      completed without any files. */
  lemma AdvanceCanBreakShape(cfg: Config, now: string)
    requires !cfg.production
    ensures var store := Store.MemoryStore(map["j" := Seed("j", now)]);
            var o := DevAdvance(cfg, store, AdvanceBody(Some("j"), None, Some(100.0)), now);
            && o.effects[0].StoreSet?
            && o.effects[0].snap.status == Completed
            && !FieldsExclusive(o.effects[0].snap)
  {
  }

  /** A webhook call whose signature is the `sha256=`-prefixed digest of its body. */
  function Signed(cfg: Config, raw: string, evt: WebhookEvent, now: string): (r: WebhookRequest)
    ensures Authentic(cfg, r)
  {
    var h := cfg.hmac(cfg.secret, raw);
    assert Signature.StripPrefix(Signature.Prefix + h) == h;
    WebhookRequest(Some(Signature.Prefix + h), raw, Some(evt), now)
  }

  /** Out-of-order delivery of versions 3, 1, 2 for a stored job at version 1:
      only version 3 takes effect; 1 and 2 are acknowledged as stale. */
  lemma OutOfOrderScenario(cfg: Config, w: World, e1: WebhookEvent, e2: WebhookEvent, e3: WebhookEvent, now: string)
    requires Store.Get(w.store, "J1") == Some(Seed("J1", now))
    requires !e1.Unknown? && !e2.Unknown? && !e3.Unknown?
    requires e1.JobId() == e2.JobId() == e3.JobId() == "J1"
    requires e1.Version() == 1 && e2.Version() == 2 && e3.Version() == 3
    ensures var w3 := Step(cfg, w, Signed(cfg, "b3", e3, now));
            && Store.Get(w3.store, "J1") == NextSnapshot(e3, now)
            && Step(cfg, w3, Signed(cfg, "b1", e1, now)) == w3
            && Step(cfg, w3, Signed(cfg, "b2", e2, now)) == w3
  {
    var r3 := Signed(cfg, "b3", e3, now);
    AcceptedEffect(cfg, w, r3);
    var w3 := Step(cfg, w, r3);
    RejectedChangesNothing(cfg, w3, Signed(cfg, "b1", e1, now));
    RejectedChangesNothing(cfg, w3, Signed(cfg, "b2", e2, now));
  }

  /** The end-to-end walk-through: create J1; a progress event at version 2
      is applied; its redelivery is ignored; a complete event at version 3 is
      applied; an error event at version 2 is ignored and the job stays completed. */
  lemma LifecycleScenario(cfg: Config, w: World, now: string)
    ensures var w1 := Run(w, UploadComplete(cfg, "J1", None, now).effects);
            var p := ProgressEvent(ProgressPayload("J1", Separate, 40.0, None, 2, now));
            var c := CompleteEvent(CompletePayload("J1", NoFiles.(drums := Some("url")), 3, now));
            var e := ErrorEvent(ErrorPayload("J1", "MODAL_ERROR", "failed", Some(true), 2, now));
            var w2 := Step(cfg, w1, Signed(cfg, "p", p, now));
            var w3 := Step(cfg, w2, Signed(cfg, "c", c, now));
            && Store.Get(w1.store, "J1") == Some(Seed("J1", now))
            && Store.Get(w2.store, "J1").Some?
            && Store.Get(w2.store, "J1").value.status == Processing
            && Store.Get(w2.store, "J1").value.progress == 40.0
            && Store.Get(w2.store, "J1").value.version == 2
            && Webhook(cfg, w2.store, Signed(cfg, "p", p, now)).response.body == IgnoredStaleBody
            && Store.Get(w3.store, "J1").Some?
            && Store.Get(w3.store, "J1").value.status == Completed
            && Store.Get(w3.store, "J1").value.files == Some(NoFiles.(drums := Some("url")))
            && Store.Get(w3.store, "J1").value.version == 3
            && Step(cfg, w3, Signed(cfg, "e", e, now)) == w3
  {
    CreateThenGet(cfg, w, "J1", None, now);
    var w1 := Run(w, UploadComplete(cfg, "J1", None, now).effects);
    var p := ProgressEvent(ProgressPayload("J1", Separate, 40.0, None, 2, now));
    var c := CompleteEvent(CompletePayload("J1", NoFiles.(drums := Some("url")), 3, now));
    var e := ErrorEvent(ErrorPayload("J1", "MODAL_ERROR", "failed", Some(true), 2, now));
    AcceptedEffect(cfg, w1, Signed(cfg, "p", p, now));
    var w2 := Step(cfg, w1, Signed(cfg, "p", p, now));
    AcceptedEffect(cfg, w2, Signed(cfg, "c", c, now));
    var w3 := Step(cfg, w2, Signed(cfg, "c", c, now));
    RejectedChangesNothing(cfg, w3, Signed(cfg, "e", e, now));
  }
}

=== FILE: shared_types.dfy ===
/** The event contract of the older `apps/api` stack (packages/types/src/index.ts):
    its six-valued stage, progress and snapshot records, stem files, the
    webhook payload and the eight socket event names. */
module SharedTypes {
  import opened Common

  datatype JobStage = Queued | Preprocess | Separate | Postprocess | Complete | Error

  function StageName(s: JobStage): string {
    match s
    case Queued => "queued"
    case Preprocess => "preprocess"
    case Separate => "separate"
    case Postprocess => "postprocess"
    case Complete => "complete"
    case Error => "error"
  }

  /** Reads a stage name; the six names are exactly the strings that parse. */
  function ParseStage(s: string): (r: Option<JobStage>)
    ensures r.Some? ==> StageName(r.value) == s
    ensures r.None? ==> s !in {"queued", "preprocess", "separate", "postprocess", "complete", "error"}
  {
    if s == "queued" then Some(Queued)
    else if s == "preprocess" then Some(Preprocess)
    else if s == "separate" then Some(Separate)
    else if s == "postprocess" then Some(Postprocess)
    else if s == "complete" then Some(Complete)
    else if s == "error" then Some(Error)
    else None
  }

  lemma StageRoundTrip(s: JobStage)
    ensures ParseStage(StageName(s)) == Some(s)
  {
  }

  datatype SnapshotStatus = Pending | Processing | Completed | Failed

  function StatusName(s: SnapshotStatus): string {
    match s
    case Pending => "pending"
    case Processing => "processing"
    case Completed => "completed"
    case Failed => "failed"
  }

  function ParseStatus(s: string): (r: Option<SnapshotStatus>)
    ensures r.Some? ==> StatusName(r.value) == s
    ensures r.None? ==> s !in {"pending", "processing", "completed", "failed"}
  {
    if s == "pending" then Some(Pending)
    else if s == "processing" then Some(Processing)
    else if s == "completed" then Some(Completed)
    else if s == "failed" then Some(Failed)
    else None
  }

  lemma StatusRoundTrip(s: SnapshotStatus)
    ensures ParseStatus(StatusName(s)) == Some(s)
  {
  }

  /** Every key is optional. */
  datatype StemFiles = StemFiles(
    drums: Option<string>,
    bass: Option<string>,
    vocals: Option<string>,
    other: Option<string>,
    zip: Option<string>)

  /** `JobProgress`. The declared type of `stage` is `JobStage`, but the
      webhook fills it with an unchecked cast of any string, so the model
      keeps the string. Numbers are JavaScript numbers: `version` may be the
      webhook's fractional `timestamp`. */
  datatype JobProgress = JobProgress(
    jobId: string,
    stage: string,
    progress: real,
    etaSec: Option<real>,
    message: Option<string>,
    version: real,
    ts: int)

  datatype JobError = JobError(jobId: string, code: string, message: string, retryable: bool, ts: int)

  /** What is stored under the hash's `error` field by the webhook's error
      branch: a message and the event timestamp, not a `JobError`. */
  datatype ErrorBlob = ErrorBlob(message: Option<string>, timestamp: real)

  /** `JobSnapshot extends JobProgress`: always carries `version` and `ts`.
      `status` and `stage` are whatever strings the hash holds (the decoder
      casts without checking); `ParseStatus` says whether `status` is one of
      the four declared values. */
  datatype JobSnapshot = JobSnapshot(
    jobId: string,
    status: string,
    stage: Option<string>,
    progress: real,
    etaSec: Option<int>,
    message: Option<string>,
    version: int,
    ts: int,
    files: Option<StemFiles>,
    error: Option<ErrorBlob>)

  datatype WebhookEventKind = ProgressKind | CompleteKind | ErrorKind

  datatype WebhookData = WebhookData(
    stage: Option<string>,
    progress: Option<real>,
    message: Option<string>,
    files: Option<StemFiles>,
    error: Option<string>)

  /** `WebhookPayload` after validation: `timestamp` is required. */
  datatype WebhookPayload = WebhookPayload(jobId: string, event: WebhookEventKind, data: WebhookData, timestamp: real)

  /** `WS_EVENTS`: five server-to-client names, then three client-to-server names. */
  datatype WsEvent =
    | WsAccepted | WsProgress | WsSnapshot | WsComplete | WsError
    | WsJoin | WsLeave | WsRequestSnapshot

  predicate ServerToClient(e: WsEvent) {
    e.WsAccepted? || e.WsProgress? || e.WsSnapshot? || e.WsComplete? || e.WsError?
  }

  function WsName(e: WsEvent): string {
    match e
    case WsAccepted => "job:accepted"
    case WsProgress => "job:progress"
    case WsSnapshot => "job:snapshot"
    case WsComplete => "job:complete"
    case WsError => "job:error"
    case WsJoin => "job:join"
    case WsLeave => "job:leave"
    case WsRequestSnapshot => "job:request-snapshot"
  }

  /** The inverse of `WsName`, as the socket layer dispatches on it. */
  function ParseWs(s: string): (r: Option<WsEvent>)
    ensures r.Some? ==> WsName(r.value) == s
  {
    if s == "job:accepted" then Some(WsAccepted)
    else if s == "job:progress" then Some(WsProgress)
    else if s == "job:snapshot" then Some(WsSnapshot)
    else if s == "job:complete" then Some(WsComplete)
    else if s == "job:error" then Some(WsError)
    else if s == "job:join" then Some(WsJoin)
    else if s == "job:leave" then Some(WsLeave)
    else if s == "job:request-snapshot" then Some(WsRequestSnapshot)
    else None
  }

  /** The eight names are pairwise distinct, so no client-to-server name can
      be mistaken for a server-to-client one. */
  lemma WsNamesDistinct(a: WsEvent, b: WsEvent)
    ensures WsName(a) == WsName(b) ==> a == b
    ensures ServerToClient(a) && !ServerToClient(b) ==> WsName(a) != WsName(b)
  {
    assert ParseWs(WsName(a)) == Some(a);
    assert ParseWs(WsName(b)) == Some(b);
  }
}

=== FILE: signature.dfy ===
/** The HMAC check shared by the main server and the Next.js webhook route.

    HMAC-SHA256 (section 2 of RFC 2104 over SHA-256 of FIPS 180-4) is not
    modelled: the hex digest is the function parameter `hmac(secret, body)`.
    `timingSafeEqual` throws when its two buffers differ in length; the
    caller's `try` turns that into `false`. */
module Signature {
  import opened Common

  /** The hex digest function, `createHmac('sha256', secret).update(body).digest('hex')`. */
  type Digest = (string, string) -> string

  const Prefix: string := "sha256="

  /** The signature header with an optional `sha256=` prefix removed. */
  function StripPrefix(signature: string): (given: string)
    ensures StartsWith(signature, Prefix) ==> Prefix + given == signature
    ensures !StartsWith(signature, Prefix) ==> given == signature
  {
    if StartsWith(signature, Prefix) then signature[|Prefix|..] else signature
  }

  /** `timingSafeEqual(Buffer.from(a), Buffer.from(b))`: `None` stands for the
      length-mismatch exception. */
  function TimingSafeEqual(a: string, b: string): (r: Option<bool>)
    ensures r.None? <==> |a| != |b|
    ensures r.Some? ==> (r.value <==> a == b)
  {
    if |a| != |b| then None else Some(a == b)
  }

  /** `verifyHmac(payload, secret, signature)`; an exception yields `false`. */
  function VerifyHmac(hmac: Digest, payload: string, secret: string, signature: string): (ok: bool)
    ensures ok ==> StripPrefix(signature) == hmac(secret, payload)
    ensures |StripPrefix(signature)| != |hmac(secret, payload)| ==> !ok
  {
    var expected := hmac(secret, payload);
    match TimingSafeEqual(expected, StripPrefix(signature))
    case None => false
    case Some(eq) => eq
  }

  /** A hex digest never starts with the `sha256=` prefix ('s' is not a hex digit). */
  lemma HexHasNoPrefix(h: string)
    requires IsLowerHex(h)
    ensures !StartsWith(h, Prefix)
  {
    if |Prefix| <= |h| {
      assert IsHexDigit(h[0]);
      assert h[..|Prefix|][0] == h[0] != Prefix[0];
    }
  }

  /** The check accepts exactly two headers: the bare hex digest of the body,
      or `sha256=` followed by it. Every other header, including one of the
      wrong length, is rejected. */
  lemma VerifyHmacAcceptsExactly(hmac: Digest, payload: string, secret: string, signature: string)
    requires IsLowerHex(hmac(secret, payload))
    ensures VerifyHmac(hmac, payload, secret, signature)
            <==> (signature == hmac(secret, payload) || signature == Prefix + hmac(secret, payload))
  {
    var h := hmac(secret, payload);
    HexHasNoPrefix(h);
    if StartsWith(signature, Prefix) {
      assert Prefix + StripPrefix(signature) == signature;
      if signature == Prefix + h {
        assert signature[|Prefix|..] == h;
      }
    }
  }
}

=== FILE: store.dfy ===
/** The job store of the main server (apps/server/src/store.ts): one
    `get`/`set` contract with an in-memory and a Redis back end.

    JSON (de)serialisation is not modelled: a Redis value either encodes a
    snapshot or is text that does not parse as one. Expiry is not modelled
    either; the TTL a `set` asks for is recorded beside the value. */
module Store {
  import opened Common
  import opened Events

  const DefaultTtlSec: int := 7 * 24 * 3600

  const RedisKeyPrefix: string := "job:"

  datatype RedisValue = Encoded(snap: JobSnapshot) | Garbage(text: string)

  datatype RedisEntry = RedisEntry(value: RedisValue, ttlSec: int)

  datatype JobStore =
    | MemoryStore(m: map<string, JobSnapshot>)
    | RedisStore(keyPrefix: string, kv: map<string, RedisEntry>)

  /** `createStore()`: the memory store iff `REDIS_URL` is unset or empty;
      otherwise a Redis store over the database's current contents `remote`. */
  function CreateStore(redisUrl: Option<string>, remote: map<string, RedisEntry>): (s: JobStore)
    ensures s.MemoryStore? <==> !Truthy(redisUrl)
    ensures s.MemoryStore? ==> s.m == map[]
    ensures s.RedisStore? ==> s.keyPrefix == RedisKeyPrefix && s.kv == remote
  {
    if Truthy(redisUrl) then RedisStore(RedisKeyPrefix, remote) else MemoryStore(map[])
  }

  /** Decoding a Redis value: an empty or unparsable value reads as absent. */
  function Decode(v: RedisValue): Option<JobSnapshot> {
    match v
    case Encoded(s) => Some(s)
    case Garbage(_) => None
  }

  /** `get(id)`: the stored snapshot, or `null` when the id is absent or its
      Redis value does not decode. */
  function Get(s: JobStore, id: string): (r: Option<JobSnapshot>)
    ensures s.MemoryStore? ==> (r.Some? <==> id in s.m) && (r.Some? ==> r.value == s.m[id])
    ensures s.RedisStore? ==>
              (r.Some? <==> s.keyPrefix + id in s.kv && s.kv[s.keyPrefix + id].value.Encoded?)
    ensures s.RedisStore? && r.Some? ==> r.value == s.kv[s.keyPrefix + id].value.snap
  {
    match s
    case MemoryStore(m) => if id in m then Some(m[id]) else None
    case RedisStore(prefix, kv) =>
      var key := prefix + id;
      if key in kv then Decode(kv[key].value) else None
  }

  /** `set(id, snap, ttlSec?)`: a full overwrite. The memory store ignores the
      TTL; the Redis store writes with `EX ttlSec`, defaulting to seven days. */
  function Set(s: JobStore, id: string, snap: JobSnapshot, ttlSec: Option<int>): (r: JobStore)
    ensures r.MemoryStore? == s.MemoryStore?
    ensures Get(r, id) == Some(snap)
    ensures forall other :: other != id ==> Get(r, other) == Get(s, other)
  {
    match s
    case MemoryStore(m) => MemoryStore(m[id := snap])
    case RedisStore(prefix, kv) =>
      var r := RedisStore(prefix, kv[prefix + id := RedisEntry(Encoded(snap), ttlSec.GetOr(DefaultTtlSec))]);
      assert forall other :: other != id ==> Get(r, other) == Get(s, other) by {
        forall other | other != id
          ensures Get(r, other) == Get(s, other)
        {
          if prefix + other == prefix + id {
            PrefixInjective(prefix, other, id);
          }
        }
      }
      r
  }

  /** The TTL recorded for a job's entry, if the back end records one. */
  function TtlOf(s: JobStore, id: string): Option<int> {
    match s
    case MemoryStore(_) => None
    case RedisStore(prefix, kv) => if prefix + id in kv then Some(kv[prefix + id].ttlSec) else None
  }

  /** A Redis `set` records the requested TTL under `keyPrefix + id`, or seven days when none is given. */
  lemma RedisSetRecordsTtl(s: JobStore, id: string, snap: JobSnapshot, ttlSec: Option<int>)
    requires s.RedisStore?
    ensures var r := Set(s, id, snap, ttlSec);
            && s.keyPrefix + id in r.kv
            && TtlOf(r, id) == Some(if ttlSec.Some? then ttlSec.value else DefaultTtlSec)
  {
  }

  /** The memory store does not look at the TTL at all. */
  lemma MemorySetIgnoresTtl(s: JobStore, id: string, snap: JobSnapshot, t1: Option<int>, t2: Option<int>)
    requires s.MemoryStore?
    ensures Set(s, id, snap, t1) == Set(s, id, snap, t2)
  {
  }

  /** `set` is not a field merge: whatever was stored before, a later `get`
      sees exactly the new snapshot, and two stores that differ only at `id`
      agree after both are set there. */
  lemma SetOverwrites(s1: JobStore, s2: JobStore, id: string, snap: JobSnapshot, t: Option<int>)
    requires forall other :: other != id ==> Get(s1, other) == Get(s2, other)
    ensures forall k :: Get(Set(s1, id, snap, t), k) == Get(Set(s2, id, snap, t), k)
  {
  }

  /** An unparsable or empty Redis value reads as absent. */
  lemma GarbageReadsAsAbsent(prefix: string, kv: map<string, RedisEntry>, id: string)
    requires prefix + id in kv && kv[prefix + id].value.Garbage?
    ensures Get(RedisStore(prefix, kv), id) == None
  {
  }

  /** A freshly created store over an empty database holds no job, whatever its back end. */
  lemma FreshStoreIsEmpty(redisUrl: Option<string>, id: string)
    ensures Get(CreateStore(redisUrl, map[]), id) == None
  {
  }
}

=== FILE: web_route.dfy ===
/** The Next.js webhook route (apps/web/app/api/webhooks/modal/route.ts).

    It shares the signature check with the main server, builds a partial
    column update per event kind, and applies it to the `jobs` table as a
    conditional write: only the row whose id is the event's job id and whose
    stored version is strictly below the event's version is updated. A stale
    event matches no row and is still acknowledged with `{ok:true}`.

    The web upload route inserts rows without a `version`
    (apps/web/app/api/upload/complete/route.ts:14-21), so a row's version
    may be NULL; `NULL < v` is not true in SQL, so such a row never matches. */
module WebRoute {
  import opened Common
  import opened Events
  import Signature

  /** The route's own view of a parsed body: `stage` is any string, `ts` is
      optional, and `WOther` is a body whose `type` is none of the three. */
  datatype WebEvent =
    | WProgress(jobId: string, stage: string, progress: real, version: int, ts: Option<string>, etaSec: Option<real>)
    | WComplete(jobId: string, files: JobFiles, version: int, ts: Option<string>)
    | WError(jobId: string, code: string, message: string, retryable: Option<bool>, version: int, ts: Option<string>)
    | WOther(jobId: string, version: int, ts: Option<string>)

  /** The columns of a `jobs` row the route writes; `None` is SQL NULL,
      `version` included. */
  datatype Row = Row(
    status: Option<JobStatus>,
    stage: Option<string>,
    progress: Option<real>,
    etaSec: Option<real>,
    files: Option<JobFiles>,
    errorCode: Option<string>,
    errorMessage: Option<string>,
    version: Option<int>,
    updatedAt: string)

  type Table = map<string, Row>

  /** The update object: a column is written iff its field is `Some`;
      `etaSec == Some(None)` writes NULL. */
  datatype Update = Update(
    version: int,
    updatedAt: string,
    status: Option<JobStatus>,
    stage: Option<string>,
    progress: Option<real>,
    etaSec: Option<Option<real>>,
    files: Option<JobFiles>,
    errorCode: Option<string>,
    errorMessage: Option<string>)

  /** The update record for an event. `updated_at` is the event's `ts` when it
      is a non-empty string and the server clock otherwise. */
  function BuildUpdate(evt: WebEvent, now: string): (u: Update)
    ensures u.version == evt.version
    ensures u.updatedAt == OrElse(evt.ts, now)
    ensures evt.WProgress? ==>
              u == Update(evt.version, u.updatedAt, Some(Processing), Some(evt.stage), Some(evt.progress),
                          Some(evt.etaSec), None, None, None)
    ensures evt.WComplete? ==>
              u == Update(evt.version, u.updatedAt, Some(Completed), Some("upload"), Some(100.0),
                          None, Some(evt.files), None, None)
    ensures evt.WError? ==>
              u == Update(evt.version, u.updatedAt, Some(Failed), None, Some(100.0),
                          None, None, Some(evt.code), Some(evt.message))
    ensures evt.WOther? ==> u == Update(evt.version, u.updatedAt, None, None, None, None, None, None, None)
  {
    var base := Update(evt.version, OrElse(evt.ts, now), None, None, None, None, None, None, None);
    match evt
    case WProgress(_, stage, progress, _, _, etaSec) =>
      base.(status := Some(Processing), stage := Some(stage), progress := Some(progress), etaSec := Some(etaSec))
    case WComplete(_, files, _, _) =>
      base.(status := Some(Completed), stage := Some("upload"), progress := Some(100.0), files := Some(files))
    case WError(_, code, message, _, _, _) =>
      base.(status := Some(Failed), progress := Some(100.0), errorCode := Some(code), errorMessage := Some(message))
    case WOther(_, _, _) => base
  }

  function Put<T>(column: Option<T>, current: Option<T>): Option<T> {
    if column.Some? then column else current
  }

  /** Write the update's columns into a row; columns it does not name keep their values. */
  function ApplyUpdate(row: Row, u: Update): (r: Row)
    ensures r.version == Some(u.version) && r.updatedAt == u.updatedAt
    ensures u.status.Some? ==> r.status == u.status
    ensures u.status.None? ==> r.status == row.status
    ensures u.stage.Some? ==> r.stage == u.stage
    ensures u.stage.None? ==> r.stage == row.stage
    ensures u.progress.Some? ==> r.progress == u.progress
    ensures u.progress.None? ==> r.progress == row.progress
    ensures u.etaSec.Some? ==> r.etaSec == u.etaSec.value
    ensures u.etaSec.None? ==> r.etaSec == row.etaSec
    ensures u.files.None? ==> r.files == row.files
    ensures u.files.Some? ==> r.files == u.files
    ensures u.errorCode.Some? ==> r.errorCode == u.errorCode
    ensures u.errorCode.None? ==> r.errorCode == row.errorCode
    ensures u.errorMessage.Some? ==> r.errorMessage == u.errorMessage
    ensures u.errorMessage.None? ==> r.errorMessage == row.errorMessage
  {
    Row(Put(u.status, row.status), Put(u.stage, row.stage), Put(u.progress, row.progress),
        if u.etaSec.Some? then u.etaSec.value else row.etaSec,
        Put(u.files, row.files), Put(u.errorCode, row.errorCode), Put(u.errorMessage, row.errorMessage),
        Some(u.version), u.updatedAt)
  }

  /** `.lt('version', v)`: SQL `version < v`, which a NULL version never satisfies. */
  predicate OlderThan(row: Row, version: int) {
    row.version.Some? && row.version.value < version
  }

  /** `update(u).eq('id', jobId).lt('version', version)` */
  function ConditionalUpdate(table: Table, jobId: string, version: int, u: Update): (t: Table)
    ensures t.Keys == table.Keys
    ensures forall id :: id in table && id != jobId ==> t[id] == table[id]
    ensures jobId in table && table[jobId].version.Some? && table[jobId].version.value < version ==>
              t[jobId] == ApplyUpdate(table[jobId], u)
    ensures jobId in table && table[jobId].version.Some? && version <= table[jobId].version.value ==>
              t[jobId] == table[jobId]
    ensures jobId in table && table[jobId].version.None? ==> t[jobId] == table[jobId]
  {
    if jobId in table && OlderThan(table[jobId], version) then table[jobId := ApplyUpdate(table[jobId], u)]
    else table
  }

  datatype WebRequest = WebRequest(signature: Option<string>, raw: string, parsed: Option<WebEvent>, now: string)

  datatype WebResponse = Unauthorized | ServerError | Ok

  predicate Authentic(hmac: Signature.Digest, secret: Option<string>, req: WebRequest) {
    Signature.VerifyHmac(hmac, req.raw, secret.GetOr(""), req.signature.GetOr(""))
  }

  /** `POST` on the route. `secret` is `WEBHOOK_SECRET` (empty when unset);
      `dbFails` says whether the database call reports an error. A body that
      does not parse throws and surfaces as a 500. */
  function Handle(hmac: Signature.Digest, secret: Option<string>, table: Table, req: WebRequest, dbFails: bool)
    : (r: (WebResponse, Table))
    ensures r.0 == Unauthorized <==> !Authentic(hmac, secret, req)
    ensures r.0 != Ok ==> r.1 == table
    ensures r.0 == Ok <==> Authentic(hmac, secret, req) && req.parsed.Some? && !dbFails
    ensures r.0 == Ok ==>
              var evt := req.parsed.value;
              r.1 == ConditionalUpdate(table, evt.jobId, evt.version, BuildUpdate(evt, req.now))
  {
    if !Authentic(hmac, secret, req) then (Unauthorized, table)
    else match req.parsed
      case None => (ServerError, table)
      case Some(evt) =>
        if dbFails then (ServerError, table)
        else (Ok, ConditionalUpdate(table, evt.jobId, evt.version, BuildUpdate(evt, req.now)))
  }

  /** No row's version ever decreases, whatever the request: a NULL version
      stays NULL, and a set one ends at the larger of its old value and the
      event's when the call is ok, unchanged otherwise. */
  lemma VersionNeverDecreases(hmac: Signature.Digest, secret: Option<string>, table: Table, req: WebRequest,
                              dbFails: bool, id: string)
    requires id in table
    ensures var t := Handle(hmac, secret, table, req, dbFails).1;
            && id in t
            && (table[id].version.None? ==> t[id].version.None?)
            && (table[id].version.Some? ==> t[id].version.Some? && table[id].version.value <= t[id].version.value)
            && (Handle(hmac, secret, table, req, dbFails).0 == Ok && id == req.parsed.value.jobId
                && table[id].version.Some? ==>
                  t[id].version.value == if table[id].version.value < req.parsed.value.version
                                         then req.parsed.value.version else table[id].version.value)
  {
  }

  /** A row inserted without a version is never updated by the route: every
      request leaves it exactly as it was. */
  lemma NullVersionNeverUpdated(hmac: Signature.Digest, secret: Option<string>, table: Table, req: WebRequest,
                                dbFails: bool, id: string)
    requires id in table && table[id].version.None?
    ensures var t := Handle(hmac, secret, table, req, dbFails).1;
            id in t && t[id] == table[id]
  {
  }

  /** A stale or duplicate event, or one for a row without a version, is
      acknowledged with `{ok:true}` and leaves the table as it was. */
  lemma StaleSilentlyAcknowledged(hmac: Signature.Digest, secret: Option<string>, table: Table, req: WebRequest)
    requires Authentic(hmac, secret, req) && req.parsed.Some?
    requires req.parsed.value.jobId in table
    requires !OlderThan(table[req.parsed.value.jobId], req.parsed.value.version)
    ensures Handle(hmac, secret, table, req, false) == (Ok, table)
  {
  }

  /** Redelivering the same event (with any accepted signature) changes nothing more. */
  lemma RedeliveryIsNoOp(hmac: Signature.Digest, secret: Option<string>, table: Table, req: WebRequest, again: WebRequest)
    requires Authentic(hmac, secret, req)
    requires Authentic(hmac, secret, again) && again.parsed == req.parsed
    ensures var t1 := Handle(hmac, secret, table, req, false).1;
            Handle(hmac, secret, t1, again, false) == (if req.parsed.Some? then Ok else ServerError, t1)
  {
    var t1 := Handle(hmac, secret, table, req, false).1;
    if req.parsed.Some? {
      var evt := req.parsed.value;
      if evt.jobId in table && OlderThan(table[evt.jobId], evt.version) {
        assert t1[evt.jobId].version == Some(evt.version);
      }
    }
  }

  /** The update is a merge, not a rewrite: delivering a progress event and
      then a newer complete event leaves the progress event's ETA in the row,
      while the other order (the progress event then being stale) does not.
      Both orders end at the same version. */
  lemma MergeKeepsOlderColumns(hmac: Signature.Digest, secret: Option<string>, now: string)
    ensures
      var row := Row(Some(Queued), None, Some(0.0), None, None, None, None, Some(1), now);
      var table := map["j" := row];
      var p := WProgress("j", "separate", 40.0, 2, None, Some(30.0));
      var c := WComplete("j", NoFiles, 3, None);
      var pc := ConditionalUpdate(ConditionalUpdate(table, "j", 2, BuildUpdate(p, now)), "j", 3, BuildUpdate(c, now));
      var cp := ConditionalUpdate(ConditionalUpdate(table, "j", 3, BuildUpdate(c, now)), "j", 2, BuildUpdate(p, now));
      && pc["j"].version == cp["j"].version == Some(3)
      && pc["j"].status == cp["j"].status == Some(Completed)
      && pc["j"].etaSec == Some(30.0)
      && cp["j"].etaSec == None
  {
  }
}
